=== FILE: README.md ===
# Videography portfolio site — a Dafny model of its logic

The site is a single-page videography portfolio with three pieces of logic
behind the page:

- **a video list managed by an admin.** It is kept in the browser's local
  storage and guarded by one shared admin password. New entries are given as
  YouTube URLs or ids, which a small parser turns into video ids.
- **a gallery read from a Google Drive folder.** Each sub-folder becomes a
  tab, and the files in it become image or video tiles.
- **a serverless contact-form endpoint.** It validates the form and then
  (optionally) sends an email.

The model covers the two data hooks, the endpoint's handler and the
components that drive them. The components are the admin panel, the
portfolio page's category filter, the gallery section's tabs and viewer,
and the header's scroll-spy. It proves what these promise.

Module layout (one file per source file, plus one shared module):

| module | models |
|---|---|
| `Common` | The JavaScript string operations the source relies on: truthiness of optional strings, the `\s` character class, `indexOf`/`includes`, `replace` with a string pattern, and `trim`. |
| `VideoPortfolio` | `src/hooks/useVideoPortfolio.ts`: a `LocalStorage` object and a `VideoPortfolio` class whose methods update the list, the admin flag and the storage. The YouTube-id parser is modelled as functions. |
| `DrivePortfolio` | `src/hooks/useGoogleDrivePortfolio.ts`: the whole fetch as a function of the responses (`FetchResult`), a `DrivePortfolio` class holding `folders`/`loading`/`error`, and the URL builders and MIME predicates. |
| `Contact` | `api/contact.ts`: the handler as a function from a request to a status and a JSON body. Two of its inputs are whether a Resend key is configured and whether sending throws. |
| `AdminPanel` | `src/components/portfolio/AdminPanel.tsx`: the login and add-video submit handlers over the panel's form state. |
| `PortfolioPage` | `src/pages/Portfolio.tsx`: the category filter, the empty-state rule, play/close and delete. |
| `PortfolioSection` | `src/components/sections/PortfolioSection.tsx`: the default-tab rule, tab clicks, the viewer, the video-tile thumbnail and the render guards. |
| `SinglePageHeader` | `src/components/layout/SinglePageHeader.tsx`: the scrolled flag, the scroll-spy loop, scroll-to-section and the mobile menu. |

Things the browser or the network would supply are parameters:
- each HTTP response is a value of a response datatype;
- the clock readings (`Date.now()`, ISO timestamps) are strings;
- element offsets are a sequence;
- whether the email send throws is a boolean.

React state updates are modelled as direct field assignments on the
component's class.

The model follows the code, which:
- in `deleteVideo`, removes **every** entry carrying the id, not only the first
  (`WithoutId`, `WithoutIdLength`).
- does not absorb a sub-folder file listing whose request **throws** (network failure or
  unparseable body). The `Promise.all` rejects, and the
  whole fetch ends in the error state. Only a non-OK status degrades to an
  empty file list (`Assemble`, `FetchResult`).
- on a failed or unconfigured fetch, sets `error` but **leaves `folders` as
  they were**; it does not empty them (`DrivePortfolio.DrivePortfolio.FetchDriveFolders`).
- answers a request with no body with **500**, not 400: the field access
  fails inside the `try` (`Contact.Handle`).

## Model

| member | source | states |
|---|---|---|
| `Common.Includes` | src/hooks/useGoogleDrivePortfolio.ts:98 | `includes` is true if and only if the pattern occurs at some position of the string |
| `Common.ReplaceFirst` | src/hooks/useGoogleDrivePortfolio.ts:88 | `replace` with a string pattern: with no occurrence the string is unchanged; otherwise exactly the leftmost occurrence is replaced and the rest is kept |
| `Common.Trim` | src/components/portfolio/AdminPanel.tsx:63 | `trim()` leaves no whitespace character at either end of its result |
| `Common.TrimEmptyIff` | src/components/portfolio/AdminPanel.tsx:63 | `trim()` gives `''` if and only if every character is in `\s` |
| `Common.TrimIsSlice` | src/components/portfolio/AdminPanel.tsx:72 | `trim()` only removes whitespace from the two ends: the result is a contiguous slice of the input, and every character cut off before or after it is whitespace |
| `VideoPortfolio.AdminPassword` | src/hooks/useVideoPortfolio.ts:13 | the configured password when it is truthy, else `admin123`; never empty |
| `VideoPortfolio.EmptyPasswordRejected` | src/hooks/useVideoPortfolio.ts:13 | the empty password never equals the admin password, whatever is configured |
| `VideoPortfolio.DefaultVideos` | src/hooks/useVideoPortfolio.ts:30-52 | three seed entries with ids `1`, `2`, `3`, each stamped with its own clock reading |
| `VideoPortfolio.WithoutId` | src/hooks/useVideoPortfolio.ts:84 | the `filter` keeps only entries of the list, none of them carrying the deleted id, and never grows the list |
| `VideoPortfolio.WithoutIdConcat` | src/hooks/useVideoPortfolio.ts:84 | the delete filter distributes over concatenation, so survivors keep their order |
| `VideoPortfolio.WithoutIdMembers` | src/hooks/useVideoPortfolio.ts:84 | an entry survives the delete if and only if it was in the list and its id differs |
| `VideoPortfolio.WithoutAbsentId` | src/hooks/useVideoPortfolio.ts:83-87 | deleting an id no entry carries leaves the list unchanged |
| `VideoPortfolio.WithoutIdLength` | src/hooks/useVideoPortfolio.ts:84 | the delete removes exactly as many entries as carry the id, which is all of them |
| `VideoPortfolio.WithoutUniqueId` | src/hooks/useVideoPortfolio.ts:83-87 | when one entry carries the id, the delete removes exactly that entry |
| `VideoPortfolio.AddThenDelete` | src/hooks/useVideoPortfolio.ts:70-87 | deleting the id of an entry just appended with a fresh id restores the list |
| `VideoPortfolio.LocalStorage.constructor` | src/hooks/useVideoPortfolio.ts:21 | the storage starts with the given entry under the store's key |
| `VideoPortfolio.VideoPortfolio.constructor` | src/hooks/useVideoPortfolio.ts:15-17 | a fresh store has an empty list, is logged out and uses the configured password |
| `VideoPortfolio.VideoPortfolio.Load` | src/hooks/useVideoPortfolio.ts:19-56 | storage without an entry: the defaults are adopted and persisted. A stored list: it is adopted. Unparseable text: the list is empty and storage is untouched |
| `VideoPortfolio.VideoPortfolio.Authenticate` | src/hooks/useVideoPortfolio.ts:58-64 | returns true if and only if the password matches exactly. A match logs in; a mismatch keeps the previous flag |
| `VideoPortfolio.VideoPortfolio.Logout` | src/hooks/useVideoPortfolio.ts:66-68 | the admin flag is cleared |
| `VideoPortfolio.VideoPortfolio.AddVideo` | src/hooks/useVideoPortfolio.ts:70-81 | the new entry is appended after all existing ones, and storage holds the new list |
| `VideoPortfolio.VideoPortfolio.DeleteVideo` | src/hooks/useVideoPortfolio.ts:83-87 | the list loses every entry with the id, and storage holds the new list |
| `VideoPortfolio.ReloadAfterAdd` | src/hooks/useVideoPortfolio.ts:19-81 | after an add, a new store over the same storage loads the previous list plus the new entry |
| `VideoPortfolio.MarkerAt` | src/hooks/useVideoPortfolio.ts:91 | one of the three alternatives of the URL pattern (`youtube.com/watch?v=`, `youtu.be/`, `youtube.com/embed/`), and it matches at the match position, followed by an id character |
| `VideoPortfolio.IdRun` | src/hooks/useVideoPortfolio.ts:91 | the greedy capture `[^&\n?#]+`: a slice of the input free of stop characters, ended by a stop character or the end of the string |
| `VideoPortfolio.ScanUrl` | src/hooks/useVideoPortfolio.ts:91 | the leftmost position where the URL pattern matches, or none |
| `VideoPortfolio.Capture` | src/hooks/useVideoPortfolio.ts:97 | `match[1]` at a URL match is the non-empty greedy run of id characters right after the matched prefix |
| `VideoPortfolio.ExtractYouTubeId` | src/hooks/useVideoPortfolio.ts:89-100 | the capture at the leftmost URL match. Failing that, the whole input when it is an 11-character id. Otherwise none. A result is never empty |
| `VideoPortfolio.ExtractedFromUrl` | src/hooks/useVideoPortfolio.ts:91-97 | any URL match yields a non-empty id with no `& ? #` or newline, copied from the input |
| `VideoPortfolio.ShortUrlExample` | src/hooks/useVideoPortfolio.ts:91 | `https://youtu.be/dQw4w9WgXcQ` yields `dQw4w9WgXcQ` |
| `VideoPortfolio.BareIdExample` | src/hooks/useVideoPortfolio.ts:92 | a bare 11-character id yields itself |
| `VideoPortfolio.NotAUrlExample` | src/hooks/useVideoPortfolio.ts:95-99 | `not a url` yields none |
| `DrivePortfolio.ConfigValue` | src/hooks/useGoogleDrivePortfolio.ts:4-5 | an unset or empty variable becomes `''`; otherwise its value |
| `DrivePortfolio.ThrownMessage` | src/hooks/useGoogleDrivePortfolio.ts:78 | an `Error` gives its message; any other thrown value gives `Failed to load portfolio` |
| `DrivePortfolio.RootErrorMessage` | src/hooks/useGoogleDrivePortfolio.ts:48-51 | the API's error message when truthy, else the fixed fallback; never empty |
| `DrivePortfolio.FilesOf` | src/hooks/useGoogleDrivePortfolio.ts:63-72 | a non-OK listing, or a body without `files`, gives no files; otherwise the listed files |
| `DrivePortfolio.Assemble` | src/hooks/useGoogleDrivePortfolio.ts:57-74 | settles if and only if no listing throws; then folder i has sub-folder i's id, name and files. Otherwise it rejects with the first throw in list order |
| `DrivePortfolio.KeepNonEmpty` | src/hooks/useGoogleDrivePortfolio.ts:76 | every folder kept comes from the input and has at least one file |
| `DrivePortfolio.KeepNonEmptyMembers` | src/hooks/useGoogleDrivePortfolio.ts:76 | a folder is kept if and only if it was assembled and has at least one file |
| `DrivePortfolio.KeepNonEmptyConcat` | src/hooks/useGoogleDrivePortfolio.ts:76 | the filter preserves the order of the assembled folders |
| `DrivePortfolio.KeepNonEmptyNoop` | src/hooks/useGoogleDrivePortfolio.ts:76 | with no empty folder the filter changes nothing |
| `DrivePortfolio.FetchResult` | src/hooks/useGoogleDrivePortfolio.ts:31-82 | an unconfigured key or folder gives the configuration message. A non-OK root listing gives its API message. A thrown root listing gives the thrown message. After an OK root listing, the folders with files are loaded when no sub-folder listing throws; the first thrown error is reported otherwise |
| `DrivePortfolio.OkRootLoadsUnlessListingThrows` | src/hooks/useGoogleDrivePortfolio.ts:53-78 | with the configuration set and an OK root listing, the fetch loads if and only if no sub-folder listing throws; a failure carries the message of the first listing that threw |
| `DrivePortfolio.UnconfiguredMakesNoRequest` | src/hooks/useGoogleDrivePortfolio.ts:37-41 | without configuration the outcome does not depend on any response |
| `DrivePortfolio.LoadedFolders` | src/hooks/useGoogleDrivePortfolio.ts:54-76 | a successful fetch yields exactly the non-empty folders, each built from one sub-folder's id, name and listed files. Every sub-folder with files appears |
| `DrivePortfolio.DrivePortfolio.constructor` | src/hooks/useGoogleDrivePortfolio.ts:23-25 | the hook starts loading, with no folders and no error |
| `DrivePortfolio.DrivePortfolio.FetchDriveFolders` | src/hooks/useGoogleDrivePortfolio.ts:31-82 | first the in-flight state (loading, error cleared), then the completion: loading ends false. On success the folders are replaced and the error stays cleared; on failure the error is set and the folders are kept |
| `DrivePortfolio.DrivePortfolio.BeginFetch` | src/hooks/useGoogleDrivePortfolio.ts:33-34 | while the requests are in flight, loading is true and the error is cleared; the folders shown are not touched |
| `DrivePortfolio.DrivePortfolio.CompleteFetch` | src/hooks/useGoogleDrivePortfolio.ts:37-81 | from the in-flight state, loading ends false; the outcome of the fetch replaces the folders on success, and sets the error and keeps the folders on failure |
| `DrivePortfolio.GetImageUrl` | src/hooks/useGoogleDrivePortfolio.ts:84-91 | with no thumbnail link, the view URL for the id; otherwise the link with its size rewritten |
| `DrivePortfolio.ImageUrlRewritesSize` | src/hooks/useGoogleDrivePortfolio.ts:86-89 | only the leftmost `=s220` becomes `=s800`: same length, and every other character is unchanged. A link without `=s220` is returned as is |
| `DrivePortfolio.ViewUrlCarriesId` | src/hooks/useGoogleDrivePortfolio.ts:90 | the fallback URL is the view prefix followed by the file id |
| `DrivePortfolio.GetVideoEmbedUrl` | src/hooks/useGoogleDrivePortfolio.ts:93-95 | the URL splits into the fixed prefix, the file id and `/preview` |
| `DrivePortfolio.EmbedUrlInjective` | src/hooks/useGoogleDrivePortfolio.ts:93-95 | two files with the same embed URL have the same id |
| `DrivePortfolio.IsVideo` | src/hooks/useGoogleDrivePortfolio.ts:97-99 | true if and only if `video` occurs anywhere in the MIME type |
| `DrivePortfolio.IsImage` | src/hooks/useGoogleDrivePortfolio.ts:101-103 | true if and only if `image` occurs anywhere in the MIME type |
| `DrivePortfolio.MediaPredicatesIndependent` | src/hooks/useGoogleDrivePortfolio.ts:97-103 | the two checks are independent: `image/x-video` passes both, `application/pdf` neither |
| `Contact.IsValidEmail` | api/contact.ts:40-41 | the email test accepts an address if and only if it matches `^[^\s@]+@[^\s@]+\.[^\s@]+$` |
| `Contact.EmailCheckMatchesPattern` | api/contact.ts:40-41 | the computed email check accepts exactly the language of `^[^\s@]+@[^\s@]+\.[^\s@]+$` |
| `Contact.AcceptedEmailShape` | api/contact.ts:40 | an accepted address has exactly one `@` and no whitespace, with a `.` after the `@` that is neither next to it nor last |
| `Contact.Handle` | api/contact.ts:22-170 | 405 if and only if the method is not POST. 400 "missing" if and only if a required field is falsy. 400 "invalid email" if and only if the fields are present and the pattern fails. 200 if and only if all checks pass and the send does not throw. 500 if and only if the POST has no body, or passes every check and the send throws. Each status carries its fixed body |
| `Contact.MissingFieldsReportedFirst` | api/contact.ts:35-43 | a POST whose body lacks any required field (name, email, projectType or message) is reported as missing fields, even when the email it has is malformed |
| `Contact.PhoneNeverRequired` | api/contact.ts:14-20 | the optional phone number never changes the response |
| `Contact.NoKeyStillSucceeds` | api/contact.ts:92-113 | without a Resend key a valid request succeeds whatever the send would do |
| `AdminPanel.DecideAdd` | src/components/portfolio/AdminPanel.tsx:50-72 | invalid URL if and only if the parser finds no id. Title required if and only if there is an id and the title is all whitespace. Otherwise the add uses the id, the trimmed non-empty title and the category |
| `AdminPanel.UrlCheckedBeforeTitle` | src/components/portfolio/AdminPanel.tsx:52-61 | a rejected URL is reported whatever the title |
| `AdminPanel.AcceptedTitleIsTrimmed` | src/components/portfolio/AdminPanel.tsx:63-72 | an accepted title has no whitespace at either end and is a slice of the typed title with only whitespace cut off before and after it |
| `AdminPanel.AdminPanel.constructor` | src/components/portfolio/AdminPanel.tsx:24-29 | modals closed, fields empty, category `Events` |
| `AdminPanel.AdminPanel.HandleLogin` | src/components/portfolio/AdminPanel.tsx:32-48 | a correct password logs in, closes the modal and clears the field; a wrong one changes nothing |
| `AdminPanel.AdminPanel.HandleAddVideo` | src/components/portfolio/AdminPanel.tsx:50-80 | a rejected submission changes nothing. An accepted one appends the entry to the store, persists it, clears URL and title and closes the form; the category is kept |
| `AdminPanel.AdminPanel.Submit` | src/components/portfolio/AdminPanel.tsx:72-75 | an accepted decision appends its entry to the store, persists it, clears URL and title and closes the form; any other decision changes nothing |
| `PortfolioPage.InCategory` | src/pages/Portfolio.tsx:28 | never longer than the list; only entries of the category, drawn from the list |
| `PortfolioPage.FilterVideos` | src/pages/Portfolio.tsx:26-29 | `All` shows the whole list; any filter shows a sub-collection of it |
| `PortfolioPage.PortfolioPage.FilteredVideos` | src/pages/Portfolio.tsx:26-29 | the page shows the whole list under `All`, and otherwise only entries of the list in the active category |
| `PortfolioPage.InCategoryMembers` | src/pages/Portfolio.tsx:28 | an entry is shown under a category if and only if it is in the list with that category |
| `PortfolioPage.InCategoryConcat` | src/pages/Portfolio.tsx:28 | the filter keeps the list's order |
| `PortfolioPage.InCategoryEmptyIff` | src/pages/Portfolio.tsx:28 | a category's view is empty if and only if no entry carries that category |
| `PortfolioPage.ShowsEmptyState` | src/pages/Portfolio.tsx:99-115 | the "No videos found" block renders if and only if no entry passes the filter: under `All` only for an empty list |
| `PortfolioPage.ShowsAddHint` | src/pages/Portfolio.tsx:116-120 | the hint to add a video shows if and only if the admin is logged in and the empty state shows |
| `PortfolioPage.FilterCommutesWithDelete` | src/pages/Portfolio.tsx:26-37 | deleting then filtering equals filtering then deleting |
| `PortfolioPage.PortfolioPage.constructor` | src/pages/Portfolio.tsx:12-13 | category `All`, no video selected |
| `PortfolioPage.PortfolioPage.PlayVideo` | src/pages/Portfolio.tsx:107 | the player opens on the card's video |
| `PortfolioPage.PortfolioPage.ClosePlayer` | src/pages/Portfolio.tsx:130 | the player closes |
| `PortfolioPage.PortfolioPage.SelectCategory` | src/pages/Portfolio.tsx:82 | the category becomes active; `All` shows the store's whole list |
| `PortfolioPage.PortfolioPage.HandleDelete` | src/pages/Portfolio.tsx:31-37 | the store loses every entry with the id and persists it; the visible list loses exactly those entries |
| `PortfolioSection.DefaultFolder` | src/components/sections/PortfolioSection.tsx:13-15 | a truthy active name is never overwritten; otherwise the first folder's name becomes active, if there is one |
| `PortfolioSection.DefaultFolderIdempotent` | src/components/sections/PortfolioSection.tsx:13-15 | applying the default twice is the same as once |
| `PortfolioSection.FindFolder` | src/components/sections/PortfolioSection.tsx:17 | the first folder whose name equals the active name; none if and only if no folder has it |
| `PortfolioSection.PortfolioSection.CurrentFolder` | src/components/sections/PortfolioSection.tsx:17 | the current folder is the first of the loaded folders named by the active tab; there is none if and only if no loaded folder has that name |
| `PortfolioSection.DefaultSelectsFirstFolder` | src/components/sections/PortfolioSection.tsx:13-17 | once the default applies to a non-empty list, the grid shows the first folder |
| `PortfolioSection.MediaKind` | src/components/sections/PortfolioSection.tsx:124-127 | the viewer plays a video if and only if the MIME type mentions `video` |
| `PortfolioSection.VideoThumbnail` | src/components/sections/PortfolioSection.tsx:141 | the thumbnail link when truthy, else the Drive thumbnail endpoint around the file id |
| `PortfolioSection.ShowsGallery` | src/components/sections/PortfolioSection.tsx:100 | the tabs and grid render if and only if loading is over, no error message is set and there is some folder |
| `PortfolioSection.ShowsEmptyState` | src/components/sections/PortfolioSection.tsx:172 | "No portfolio items found." renders if and only if loading is over, no error message is set and the folder list is empty; so exactly when the gallery does not render after loading without an error |
| `PortfolioSection.RenderGuards` | src/components/sections/PortfolioSection.tsx:100-172 | gallery and empty state never render together. When neither loading nor in error, exactly one renders; otherwise neither does |
| `PortfolioSection.PortfolioSection.constructor` | src/components/sections/PortfolioSection.tsx:8-9 | no active folder, no selection |
| `PortfolioSection.PortfolioSection.ApplyDefaultFolder` | src/components/sections/PortfolioSection.tsx:13-15 | the render-time default is applied; with no active folder and some folders, the current folder becomes the first one |
| `PortfolioSection.PortfolioSection.ClickTab` | src/components/sections/PortfolioSection.tsx:106 | the clicked folder's name becomes active, and a folder of that name is current |
| `PortfolioSection.PortfolioSection.SelectFile` | src/components/sections/PortfolioSection.tsx:124-127 | the viewer opens on the file, as video or image by its MIME type |
| `PortfolioSection.PortfolioSection.CloseViewer` | src/components/sections/PortfolioSection.tsx:184 | the viewer closes |
| `SinglePageHeader.LastReached` | src/components/layout/SinglePageHeader.tsx:29-35 | the last section whose element exists and whose top is at or above the position; none if and only if no section is reached |
| `SinglePageHeader.ScrollSpyMonotone` | src/components/layout/SinglePageHeader.tsx:26-35 | scrolling further down never moves the highlighted section up the list |
| `SinglePageHeader.FindActiveSection` | src/components/layout/SinglePageHeader.tsx:29-35 | the backwards loop finds the last reached section, or reports that none is reached |
| `SinglePageHeader.SinglePageHeader.constructor` | src/components/layout/SinglePageHeader.tsx:17-19 | not scrolled, menu closed, `hero` highlighted |
| `SinglePageHeader.SinglePageHeader.HandleScroll` | src/components/layout/SinglePageHeader.tsx:22-36 | scrolled if and only if past 50. The highlight moves to the last section reached at scroll + 100 and stays put when none is reached |
| `SinglePageHeader.SinglePageHeader.ScrollToSection` | src/components/layout/SinglePageHeader.tsx:42-57 | an existing section scrolls to its document offset minus the 80-pixel header; a missing one scrolls nowhere. The menu closes either way |
| `SinglePageHeader.SinglePageHeader.ToggleMobileMenu` | src/components/layout/SinglePageHeader.tsx:106 | the mobile menu flips |

## Left out

- Network and I/O: `fetch`, JSON parsing and `localStorage` are replaced by inputs (response datatypes, the `Stored` value). Neither the request URLs nor the email that is sent are modelled.
- Concurrency: `Promise.all` runs its requests concurrently, and which rejection wins depends on timing. The model picks the first in list order. A `refetch` racing an earlier fetch is not modelled.
- React rendering: stale closures, batching of state updates, effects and re-renders. Each handler runs to completion on the current state.
- `PortfolioSection.DefaultFolder`: the render-time default is modelled as one application. With a first folder named `''`, `activeFolder` stays falsy and the source sets it on every render; that re-render loop is not modelled, and `DefaultFolderIdempotent` is about values only.
- Toast notifications, icons, animations, CSS classes and the DOM beyond the element offsets passed in.
- The text inputs and open/close buttons of the admin panel each only assign one field, which callers do directly. The header's logo, link and "Let's Create" buttons are calls of `ScrollToSection`.
- `Date.now()` and ISO timestamps are string parameters (`newId`, `createdAt`). The id collisions two adds in the same millisecond would cause are not modelled.
- JSON values of the wrong type: a stored value that parses to something other than a list of entries, and form fields that are not strings. Fields are optional strings.
- `VideoPortfolio.ExtractYouTubeId`: the general JavaScript regular-expression engine is not modelled. Only the two patterns used are, written out as leftmost-match scans.
- `Contact.Handle`: the Resend call is reduced to "a key is configured" and "sending throws", and the HTML email body is not built. The commented-out alternative senders are not modelled.
- Scroll positions and element offsets are integers, not floating-point numbers.
- The other sections and pages (hero, about, services, experience, the client marquee, the intro video, the contact page with its client-side `src/lib/emailService.ts`, the older `Header.tsx`) are not part of this model. Neither is the browser test of the marquee.
- The gallery's showreel-error flag and refresh button are left out. The button calls `FetchDriveFolders`; the flag only hides an element.

=== FILE: AdminPanel.dfy ===
/** The admin panel of the portfolio page: the login form and the add-video
    form, each a submit handler over the panel's form state that calls into
    the video store. The text inputs and the open/close buttons each set a
    single field; callers assign those fields directly. */
module AdminPanel {
  import opened Common
  import opened VideoPortfolio

  /** The category options of the add form, in display order. */
  const Categories: seq<string> := ["Events", "Commercial", "Product & Food", "Shoots", "Color Grading", "Documentary"]

  /** What submitting the add form decides, before any state changes. */
  datatype AddDecision = InvalidUrl | TitleRequired | Add(youtubeId: string, title: string, category: string)

  /** The id check comes first, then the trimmed-title check. */
  function DecideAdd(videoUrl: string, videoTitle: string, videoCategory: string): (d: AddDecision)
    ensures d == InvalidUrl <==> ExtractYouTubeId(videoUrl).None?
    ensures d == TitleRequired <==>
              ExtractYouTubeId(videoUrl).Some? && forall i :: 0 <= i < |videoTitle| ==> IsWhitespace(videoTitle[i])
    ensures d.Add? ==> d.youtubeId == ExtractYouTubeId(videoUrl).value && d.youtubeId != []
    ensures d.Add? ==> d.title == Trim(videoTitle) && d.title != [] && d.category == videoCategory
  {
    TrimEmptyIff(videoTitle);
    match ExtractYouTubeId(videoUrl)
    case None => InvalidUrl
    case Some(id) =>
      if Trim(videoTitle) == "" then TitleRequired
      else Add(id, Trim(videoTitle), videoCategory)
  }

  /** A URL the parser rejects is reported as such whatever the title. */
  lemma UrlCheckedBeforeTitle(videoUrl: string, title1: string, title2: string, category: string)
    requires ExtractYouTubeId(videoUrl).None?
    ensures DecideAdd(videoUrl, title1, category) == DecideAdd(videoUrl, title2, category) == InvalidUrl
  {
  }

  /** An accepted title has no whitespace at either end. */
  lemma AcceptedTitleIsTrimmed(videoUrl: string, videoTitle: string, category: string)
    requires DecideAdd(videoUrl, videoTitle, category).Add?
    ensures var t := DecideAdd(videoUrl, videoTitle, category).title;
            !IsWhitespace(t[0]) && !IsWhitespace(t[|t| - 1])
            && exists a, b :: 0 <= a <= b <= |videoTitle| && t == videoTitle[a..b]
                 && (forall i :: 0 <= i < a ==> IsWhitespace(videoTitle[i]))
                 && (forall i :: b <= i < |videoTitle| ==> IsWhitespace(videoTitle[i]))
  {
    var t := DecideAdd(videoUrl, videoTitle, category).title;
    assert t == Trim(videoTitle) && t != [];
    TrimIsSlice(videoTitle);
  }

  class AdminPanel {
    var showLogin: bool
    var showAddForm: bool
    var password: string
    var videoUrl: string
    var videoTitle: string
    var videoCategory: string
    /** The video store whose callbacks the page passes in. */
    const store: VideoPortfolio

    constructor (store: VideoPortfolio)
      ensures this.store == store
      ensures !showLogin && !showAddForm && password == "" && videoUrl == "" && videoTitle == ""
      ensures videoCategory == Categories[0] == "Events"
    {
      this.store := store;
      showLogin := false;
      showAddForm := false;
      password := "";
      videoUrl := "";
      videoTitle := "";
      videoCategory := Categories[0];
    }

    /** `handleLogin`: an accepted password closes the modal and clears the
        field; a rejected one changes nothing. */
    method HandleLogin()
      modifies this`showLogin, this`password, store`isAuthenticated
      ensures old(password) == store.adminPassword ==>
                !showLogin && password == "" && store.isAuthenticated
      ensures old(password) != store.adminPassword ==>
                showLogin == old(showLogin) && password == old(password)
                && store.isAuthenticated == old(store.isAuthenticated)
    {
      var ok := store.Authenticate(password);
      if ok {
        showLogin := false;
        password := "";
      }
    }

    /** `handleAddVideo`: on an invalid URL or a blank title nothing
        changes; otherwise the store gains the entry, the URL and title are
        cleared and the form closes; the category, outside the frame, stays
        selected. */
    method HandleAddVideo(newId: string, createdAt: string)
      modifies this`videoUrl, this`videoTitle, this`showAddForm, store`videos, store.storage
      ensures match DecideAdd(old(videoUrl), old(videoTitle), old(videoCategory))
              case Add(id, title, category) =>
                store.videos == old(store.videos) + [VideoItem(newId, id, title, category, createdAt)]
                && store.storage.entry == Items(store.videos)
                && videoUrl == "" && videoTitle == "" && !showAddForm
              case _ =>
                store.videos == old(store.videos) && store.storage.entry == old(store.storage.entry)
                && videoUrl == old(videoUrl) && videoTitle == old(videoTitle) && showAddForm == old(showAddForm)
    {
      Submit(DecideAdd(videoUrl, videoTitle, videoCategory), newId, createdAt);
    }

    /** The state change that follows the decision. */
    method Submit(decision: AddDecision, newId: string, createdAt: string)
      modifies this`videoUrl, this`videoTitle, this`showAddForm, store`videos, store.storage
      ensures match decision
              case Add(id, title, category) =>
                store.videos == old(store.videos) + [VideoItem(newId, id, title, category, createdAt)]
                && store.storage.entry == Items(store.videos)
                && videoUrl == "" && videoTitle == "" && !showAddForm
              case _ =>
                store.videos == old(store.videos) && store.storage.entry == old(store.storage.entry)
                && videoUrl == old(videoUrl) && videoTitle == old(videoTitle) && showAddForm == old(showAddForm)
    {
      if decision.Add? {
        store.AddVideo(decision.youtubeId, decision.title, decision.category, newId, createdAt);
        videoUrl := "";
        videoTitle := "";
        showAddForm := false;
      }
    }
  }
}

=== FILE: Common.dfy ===
/** Values and string operations shared by the models of the site's hooks,
    pages and API handler: an optional value, the character class of
    JavaScript's `\s` (also what `String.prototype.trim` strips), substring
    search as `indexOf`/`includes` do it, `replace` with a string pattern,
    and `trim`. */
module Common {

  /** A value that may be absent (`null`/`undefined` in the source). */
  datatype Option<+T> = None | Some(value: T)

  /** JavaScript truthiness of an optional string: absent and `''` are falsy. */
  predicate Truthy(s: Option<string>) {
    s.Some? && s.value != ""
  }

  /** Membership in JavaScript's `\s` class: the ECMAScript WhiteSpace and
      LineTerminator code points. */
  predicate IsWhitespace(c: char) {
    c == '\t' || c == '\n' || c == '\U{000B}' || c == '\U{000C}' || c == '\r' || c == ' '
    || c == '\U{00A0}' || c == '\U{1680}' || ('\U{2000}' <= c <= '\U{200A}')
    || c == '\U{2028}' || c == '\U{2029}' || c == '\U{202F}' || c == '\U{205F}'
    || c == '\U{3000}' || c == '\U{FEFF}'
  }

  /** `pat` occurs in `s` starting at index `i`. */
  predicate OccursAt(s: string, pat: string, i: nat) {
    i + |pat| <= |s| && s[i..i + |pat|] == pat
  }

  /** The leftmost occurrence of `pat` in `s` at or after `from`. */
  function IndexFrom(s: string, pat: string, from: nat): (r: Option<nat>)
    requires from <= |s|
    ensures r.Some? ==> from <= r.value && OccursAt(s, pat, r.value)
    ensures r.Some? ==> forall j: nat :: from <= j < r.value ==> !OccursAt(s, pat, j)
    ensures r.None? ==> forall j: nat :: from <= j ==> !OccursAt(s, pat, j)
    decreases |s| - from
  {
    if OccursAt(s, pat, from) then Some(from)
    else if from == |s| then None
    else IndexFrom(s, pat, from + 1)
  }

  /** `s.indexOf(pat)`, with "not found" as `None`. */
  function IndexOf(s: string, pat: string): (r: Option<nat>)
    ensures r.Some? ==> OccursAt(s, pat, r.value) && forall j: nat :: j < r.value ==> !OccursAt(s, pat, j)
    ensures r.None? <==> forall j: nat :: !OccursAt(s, pat, j)
  {
    IndexFrom(s, pat, 0)
  }

  /** `s.includes(sub)`. */
  function Includes(s: string, sub: string): (r: bool)
    ensures r <==> exists i: nat :: OccursAt(s, sub, i)
  {
    IndexOf(s, sub).Some?
  }

  /** `s.replace(pat, rep)` with a string pattern whose replacement holds no
      `$`: only the leftmost occurrence is replaced. */
  function ReplaceFirst(s: string, pat: string, rep: string): (r: string)
    ensures (forall i: nat :: !OccursAt(s, pat, i)) ==> r == s
    ensures forall i: nat :: OccursAt(s, pat, i) && (forall j: nat :: j < i ==> !OccursAt(s, pat, j)) ==>
              r == s[..i] + rep + s[i + |pat|..]
  {
    match IndexOf(s, pat)
    case None => s
    case Some(i) => s[..i] + rep + s[i + |pat|..]
  }

  /** `s.trimStart()`: drops the leading whitespace run. */
  function TrimStart(s: string): (r: string)
    ensures |r| <= |s| && r == s[|s| - |r|..]
    ensures forall i :: 0 <= i < |s| - |r| ==> IsWhitespace(s[i])
    ensures r == [] || !IsWhitespace(r[0])
  {
    if |s| > 0 && IsWhitespace(s[0]) then TrimStart(s[1..]) else s
  }

  /** `s.trimEnd()`: drops the trailing whitespace run. */
  function TrimEnd(s: string): (r: string)
    ensures |r| <= |s| && r == s[..|r|]
    ensures forall i :: |r| <= i < |s| ==> IsWhitespace(s[i])
    ensures r == [] || !IsWhitespace(r[|r| - 1])
  {
    if |s| > 0 && IsWhitespace(s[|s| - 1]) then TrimEnd(s[..|s| - 1]) else s
  }

  /** `s.trim()`. */
  function Trim(s: string): (r: string)
    ensures r == [] || (!IsWhitespace(r[0]) && !IsWhitespace(r[|r| - 1]))
  {
    TrimEnd(TrimStart(s))
  }

  /** Trimming the end of a string that does not start with whitespace
      leaves it empty only when it was empty. */
  lemma TrimEndEmpty(t: string)
    requires t == [] || !IsWhitespace(t[0])
    ensures TrimEnd(t) == [] <==> t == []
  {
    if t != [] {
      assert !IsWhitespace(t[0]);
      assert |TrimEnd(t)| > 0;
    }
  }

  /** A string trims to `''` exactly when every character is whitespace. */
  lemma TrimEmptyIff(s: string)
    ensures Trim(s) == [] <==> forall i :: 0 <= i < |s| ==> IsWhitespace(s[i])
  {
    var t := TrimStart(s);
    TrimEndEmpty(t);
    if t != [] {
      var k := |s| - |t|;
      assert s[k] == t[0];
    }
  }

  /** A prefix of a suffix is a slice. */
  lemma PrefixOfSuffix(s: string, a: nat, k: nat)
    requires a + k <= |s|
    ensures s[a..][..k] == s[a..a + k]
  {
  }

  /** Cutting a whitespace prefix and then a whitespace suffix leaves a
      slice `s[a..b]` with whitespace before `a` and from `b` on. */
  lemma CutBounds(s: string, t: string, r: string) returns (a: nat, b: nat)
    requires |t| <= |s| && t == s[|s| - |t|..]
    requires forall i :: 0 <= i < |s| - |t| ==> IsWhitespace(s[i])
    requires |r| <= |t| && r == t[..|r|]
    requires forall i :: |r| <= i < |t| ==> IsWhitespace(t[i])
    ensures a <= b <= |s| && r == s[a..b]
    ensures forall i :: 0 <= i < a ==> IsWhitespace(s[i])
    ensures forall i :: b <= i < |s| ==> IsWhitespace(s[i])
  {
    a, b := |s| - |t|, |s| - |t| + |r|;
    PrefixOfSuffix(s, a, |r|);
    forall i | b <= i < |s|
      ensures IsWhitespace(s[i])
    {
      assert s[i] == t[i - a];
    }
  }

  /** The bounds of what `Trim` keeps: everything before `a` and from `b`
      on is whitespace. */
  lemma TrimBounds(s: string) returns (a: nat, b: nat)
    ensures a <= b <= |s| && Trim(s) == s[a..b]
    ensures forall i :: 0 <= i < a ==> IsWhitespace(s[i])
    ensures forall i :: b <= i < |s| ==> IsWhitespace(s[i])
  {
    a, b := CutBounds(s, TrimStart(s), TrimEnd(TrimStart(s)));
  }


  /** Trimming only removes whitespace from the two ends: the result is a
      contiguous slice of the input, and everything cut off before and after
      it is whitespace. */
  lemma TrimIsSlice(s: string)
    ensures exists a, b :: 0 <= a <= b <= |s| && Trim(s) == s[a..b]
              && (forall i :: 0 <= i < a ==> IsWhitespace(s[i]))
              && (forall i :: b <= i < |s| ==> IsWhitespace(s[i]))
  {
    var a, b := TrimBounds(s);
  }


}

=== FILE: Contact.dfy ===
/** The contact-form endpoint (`api/contact.ts`): a chain of guards that maps
    a request to a status code and a JSON body. Sending the email is not
    modelled; whether the Resend key is configured and whether sending
    throws are inputs. */
module Contact {
  import opened Common

  /** The JSON body, each field possibly absent. */
  datatype FormData = FormData(
    name: Option<string>, email: Option<string>, phone: Option<string>,
    projectType: Option<string>, message: Option<string>)

  /** A request; `body` is absent when the request carried none. */
  datatype Request = Request(httpMethod: string, body: Option<FormData>)

  datatype ResponseBody = ErrorBody(error: string) | SuccessBody(success: bool, message: string)

  datatype Response = Response(status: nat, body: ResponseBody)

  const MethodNotAllowed: string := "Method not allowed"
  const MissingFields: string := "Missing required fields"
  const InvalidEmail: string := "Invalid email format"
  const SendFailed: string := "Failed to send message. Please try again later."
  const SentMessage: string := "Message sent successfully"

  // ---------------------------------------------------------------------
  // The email pattern `^[^\s@]+@[^\s@]+\.[^\s@]+$`

  /** `[^\s@]` */
  predicate IsEmailChar(c: char) {
    !IsWhitespace(c) && c != '@'
  }

  predicate AllEmailChars(s: string) {
    forall i :: 0 <= i < |s| ==> IsEmailChar(s[i])
  }

  /** `s` splits as the pattern reads: a run, `@` at `at`, a run, `.` at
      `dot`, a run; each run non-empty and drawn from `[^\s@]`. */
  ghost predicate EmailSplit(s: string, at: nat, dot: nat) {
    0 < at && at + 1 < dot && dot + 1 < |s| && s[at] == '@' && s[dot] == '.'
    && AllEmailChars(s[..at]) && AllEmailChars(s[at + 1..dot]) && AllEmailChars(s[dot + 1..])
  }

  /** The regular expression's language, as the reference definition. */
  ghost predicate MatchesEmailPattern(s: string) {
    exists at: nat, dot: nat :: EmailSplit(s, at, dot)
  }

  /** `emailRegex.test(email)`: true exactly for the strings in the
      pattern's language. */
  function IsValidEmail(s: string): (r: bool)
    ensures r <==> MatchesEmailPattern(s)
  {
    EmailCheckMatchesPattern(s);
    EmailCheck(s)
  }

  /** The check as a direct computation: the first `@` is not at the start,
      no other character is whitespace or `@`, and the domain has a `.`
      that is neither its first nor its last character. */
  function EmailCheck(s: string): bool {
    match IndexOf(s, "@")
    case None => false
    case Some(at) =>
      var domain := s[at + 1..];
      at > 0 && AllEmailChars(s[..at]) && AllEmailChars(domain)
      && |domain| >= 3
      && match IndexFrom(domain, ".", 1)
         case None => false
         case Some(k) => k + 1 < |domain|
  }

  lemma OccursAtChar(s: string, c: char, i: nat)
    requires i < |s|
    ensures OccursAt(s, [c], i) <==> s[i] == c
  {
    if s[i] == c {
      assert s[i..i + 1] == [c];
    }
    if OccursAt(s, [c], i) {
      assert s[i..i + 1][0] == s[i];
    }
  }

  /** The computed check accepts exactly the strings the pattern matches. */
  lemma EmailCheckMatchesPattern(s: string)
    ensures EmailCheck(s) <==> MatchesEmailPattern(s)
  {
    if EmailCheck(s) {
      ValidEmailMatches(s);
    }
    if MatchesEmailPattern(s) {
      MatchingEmailValid(s);
    }
  }

  lemma ValidEmailMatches(s: string)
    requires EmailCheck(s)
    ensures MatchesEmailPattern(s)
  {
    var at := IndexOf(s, "@").value;
    OccursAtChar(s, '@', at);
    var domain := s[at + 1..];
    var k := IndexFrom(domain, ".", 1).value;
    OccursAtChar(domain, '.', k);
    var dot := at + 1 + k;
    assert s[at + 1..dot] == domain[..k];
    assert s[dot + 1..] == domain[k + 1..];
    assert EmailSplit(s, at, dot);
  }

  lemma MatchingEmailValid(s: string)
    requires MatchesEmailPattern(s)
    ensures EmailCheck(s)
  {
    var at: nat, dot: nat :| EmailSplit(s, at, dot);
    OccursAtChar(s, '@', at);
    forall j: nat | j < at ensures !OccursAt(s, "@", j) {
      assert s[..at][j] == s[j];
      OccursAtChar(s, '@', j);
    }
    assert IndexOf(s, "@") == Some(at);
    var domain := s[at + 1..];
    forall i | 0 <= i < |domain| ensures IsEmailChar(domain[i]) {
      if at + 1 + i < dot {
        assert domain[i] == s[at + 1..dot][i];
      } else if at + 1 + i > dot {
        assert domain[i] == s[dot + 1..][i - (dot - at)];
      }
    }
    var k := dot - at - 1;
    OccursAtChar(domain, '.', k);
    var first := IndexFrom(domain, ".", 1);
    assert first.Some? && first.value <= k;
  }

  /** Every accepted address has exactly one `@`, no whitespace, and a `.`
      after the `@` that is neither right after it nor the last character. */
  lemma AcceptedEmailShape(s: string)
    requires IsValidEmail(s)
    ensures exists at :: 0 <= at < |s| && s[at] == '@'
    ensures forall i, j :: 0 <= i < |s| && 0 <= j < |s| && s[i] == '@' && s[j] == '@' ==> i == j
    ensures forall i :: 0 <= i < |s| ==> !IsWhitespace(s[i])
    ensures forall at :: 0 <= at < |s| && s[at] == '@' ==>
              exists dot :: at + 1 < dot < |s| - 1 && s[dot] == '.'
  {
    var at: nat, dot: nat :| EmailSplit(s, at, dot);
    forall i | 0 <= i < |s| && i != at ensures IsEmailChar(s[i]) {
      if i < at {
        assert s[i] == s[..at][i];
      } else if i < dot {
        assert s[i] == s[at + 1..dot][i - at - 1];
      } else if i > dot {
        assert s[i] == s[dot + 1..][i - dot - 1];
      }
    }
  }

  // ---------------------------------------------------------------------
  // The handler

  /** `name`, `email`, `projectType` and `message` are all truthy; `phone`
      is optional. */
  predicate RequiredPresent(d: FormData) {
    Truthy(d.name) && Truthy(d.email) && Truthy(d.projectType) && Truthy(d.message)
  }

  /** Whether the send step throws: a valid request is sent only when a
      Resend key is configured, and only that call can throw. */
  predicate SendThrows(resendApiKey: Option<string>, sendThrows: bool) {
    Truthy(resendApiKey) && sendThrows
  }

  /** `handler`: method, then required fields, then the email pattern, then
      the send. A missing body makes the field access throw inside the
      `try`, which the `catch` answers with 500. */
  function Handle(req: Request, resendApiKey: Option<string>, sendThrows: bool): (r: Response)
    ensures r.status in {200, 400, 405, 500}
    ensures r.status == 405 <==> req.httpMethod != "POST"
    ensures r.status == 405 ==> r.body == ErrorBody(MethodNotAllowed)
    ensures r == Response(400, ErrorBody(MissingFields)) <==>
              req.httpMethod == "POST" && req.body.Some? && !RequiredPresent(req.body.value)
    ensures r == Response(400, ErrorBody(InvalidEmail)) <==>
              req.httpMethod == "POST" && req.body.Some? && RequiredPresent(req.body.value)
              && !MatchesEmailPattern(req.body.value.email.value)
    ensures r.status == 200 <==>
              req.httpMethod == "POST" && req.body.Some? && RequiredPresent(req.body.value)
              && MatchesEmailPattern(req.body.value.email.value) && !SendThrows(resendApiKey, sendThrows)
    ensures r.status == 200 ==> r.body == SuccessBody(true, SentMessage)
    ensures r.status == 500 <==>
              req.httpMethod == "POST"
              && (req.body.None?
                  || (RequiredPresent(req.body.value) && MatchesEmailPattern(req.body.value.email.value)
                      && SendThrows(resendApiKey, sendThrows)))
    ensures r.status == 500 ==> r.body == ErrorBody(SendFailed)
    ensures r.status == 400 ==> r.body == ErrorBody(MissingFields) || r.body == ErrorBody(InvalidEmail)
  {
    if req.httpMethod != "POST" then Response(405, ErrorBody(MethodNotAllowed))
    else if req.body.None? then Response(500, ErrorBody(SendFailed))
    else
      var d := req.body.value;
      if !RequiredPresent(d) then Response(400, ErrorBody(MissingFields))
      else
        if !IsValidEmail(d.email.value) then Response(400, ErrorBody(InvalidEmail))
        else if SendThrows(resendApiKey, sendThrows) then Response(500, ErrorBody(SendFailed))
        else Response(200, SuccessBody(true, SentMessage))
  }

  /** The required-field check runs before the email check: a request with
      both faults is reported as missing fields. */
  lemma MissingFieldsReportedFirst(req: Request, resendApiKey: Option<string>, sendThrows: bool)
    requires req.httpMethod == "POST" && req.body.Some?
    requires !RequiredPresent(req.body.value) && req.body.value.email.Some?
    requires !MatchesEmailPattern(req.body.value.email.value)
    ensures Handle(req, resendApiKey, sendThrows) == Response(400, ErrorBody(MissingFields))
  {
  }

  /** The optional phone number never influences the response. */
  lemma PhoneNeverRequired(httpMethod: string, d: FormData, phone: Option<string>,
                           resendApiKey: Option<string>, sendThrows: bool)
    ensures Handle(Request(httpMethod, Some(d)), resendApiKey, sendThrows)
         == Handle(Request(httpMethod, Some(d.(phone := phone))), resendApiKey, sendThrows)
  {
  }

  /** Without a Resend key nothing is sent, so a valid request succeeds even
      if sending would have thrown. */
  lemma NoKeyStillSucceeds(d: FormData, sendThrows: bool)
    requires RequiredPresent(d) && IsValidEmail(d.email.value)
    ensures Handle(Request("POST", Some(d)), None, sendThrows).status == 200
  {
  }
}

=== FILE: DrivePortfolio.dfy ===
/** The Google-Drive-backed gallery (the `useGoogleDrivePortfolio` hook):
    one listing of the root folder's sub-folders, one file listing per
    sub-folder, assembled into folders and filtered to the non-empty ones;
    plus the URL builders and media-type predicates the gallery view uses.
    The network is not modelled: each response is an input. */
module DrivePortfolio {
  import opened Common

  datatype DriveFile = DriveFile(
    id: string, name: string, mimeType: string,
    thumbnailLink: Option<string>, webContentLink: Option<string>, webViewLink: Option<string>)

  datatype DriveFolder = DriveFolder(id: string, name: string, files: seq<DriveFile>)

  /** A sub-folder as the root listing returns it (`fields=files(id,name)`). */
  datatype FolderEntry = FolderEntry(id: string, name: string)

  /** What reaches the `catch` block: an `Error` (with its message) or some
      other thrown value. */
  datatype Thrown = ErrorObject(message: string) | NonError

  /** The root listing: an OK response whose body may lack `files`, a non-OK
      response whose body may carry `error.message`, or a rejected `fetch`
      or unparseable OK body. */
  datatype RootResponse =
    | RootOk(entries: Option<seq<FolderEntry>>)
    | RootNotOk(apiMessage: Option<string>)
    | RootThrew(thrown: Thrown)

  /** One sub-folder's file listing, in the same three shapes. */
  datatype FilesResponse =
    | FilesOk(files: Option<seq<DriveFile>>)
    | FilesNotOk
    | FilesThrew(thrown: Thrown)

  const NotConfiguredMessage: string :=
    "Google Drive API not configured. Please set VITE_GOOGLE_DRIVE_API_KEY and VITE_GOOGLE_DRIVE_FOLDER_ID in your environment variables."
  const FetchFoldersFailedMessage: string := "Failed to fetch folders from Google Drive"
  const LoadFailedMessage: string := "Failed to load portfolio"

  /** `import.meta.env.X || ''`. */
  function ConfigValue(env: Option<string>): (r: string)
    ensures r == "" <==> !Truthy(env)
    ensures Truthy(env) ==> r == env.value
  {
    if Truthy(env) then env.value else ""
  }

  /** The `catch` block's message for a thrown value. */
  function ThrownMessage(t: Thrown): (r: string)
    ensures t.NonError? ==> r == LoadFailedMessage
    ensures t.ErrorObject? ==> r == t.message
  {
    match t
    case ErrorObject(m) => m
    case NonError => LoadFailedMessage
  }

  /** `errorData.error?.message || 'Failed to fetch folders from Google Drive'`. */
  function RootErrorMessage(apiMessage: Option<string>): (r: string)
    ensures r != ""
    ensures Truthy(apiMessage) ==> r == apiMessage.value
    ensures !Truthy(apiMessage) ==> r == FetchFoldersFailedMessage
  {
    if Truthy(apiMessage) then apiMessage.value else FetchFoldersFailedMessage
  }

  /** The files of a settled sub-folder response: a non-OK status or a
      body without `files` gives none. */
  function FilesOf(resp: FilesResponse): (r: seq<DriveFile>)
    requires !resp.FilesThrew?
    ensures resp.FilesNotOk? ==> r == []
    ensures resp == FilesOk(None) ==> r == []
    ensures resp.FilesOk? && resp.files.Some? ==> r == resp.files.value
  {
    match resp
    case FilesOk(fs) => if fs.Some? then fs.value else []
    case FilesNotOk => []
  }

  /** The join of the per-sub-folder requests: every settled response
      becomes a folder; the first rejection (in list order) fails it all. */
  datatype Joined = AllSettled(folders: seq<DriveFolder>) | Rejected(thrown: Thrown)

  function Assemble(subs: seq<FolderEntry>, filesFor: FolderEntry -> FilesResponse): (r: Joined)
    ensures r.AllSettled? <==> forall i :: 0 <= i < |subs| ==> !filesFor(subs[i]).FilesThrew?
    ensures r.AllSettled? ==> |r.folders| == |subs|
    ensures r.AllSettled? ==> forall i :: 0 <= i < |subs| ==>
              r.folders[i].id == subs[i].id && r.folders[i].name == subs[i].name
              && r.folders[i].files == FilesOf(filesFor(subs[i]))
    ensures r.Rejected? ==> exists i :: (0 <= i < |subs| && filesFor(subs[i]) == FilesThrew(r.thrown)
              && forall j :: 0 <= j < i ==> !filesFor(subs[j]).FilesThrew?)
  {
    if subs == [] then AllSettled([])
    else
      var resp := filesFor(subs[0]);
      if resp.FilesThrew? then Rejected(resp.thrown)
      else
        match Assemble(subs[1..], filesFor)
        case Rejected(t) =>
          var k :| 0 <= k < |subs[1..]| && filesFor(subs[1..][k]) == FilesThrew(t)
                   && forall j :: 0 <= j < k ==> !filesFor(subs[1..][j]).FilesThrew?;
          assert filesFor(subs[k + 1]) == FilesThrew(t);
          Rejected(t)
        case AllSettled(rest) =>
          AllSettled([DriveFolder(subs[0].id, subs[0].name, FilesOf(resp))] + rest)
  }

  /** `folders.filter(f => f.files.length > 0)`. */
  function KeepNonEmpty(fs: seq<DriveFolder>): (r: seq<DriveFolder>)
    ensures |r| <= |fs|
    ensures forall f :: f in r ==> f in fs && |f.files| > 0
  {
    if fs == [] then []
    else (if |fs[0].files| > 0 then [fs[0]] else []) + KeepNonEmpty(fs[1..])
  }

  /** A folder is kept iff it was assembled and has at least one file. */
  lemma {:induction false} KeepNonEmptyMembers(fs: seq<DriveFolder>, f: DriveFolder)
    ensures f in KeepNonEmpty(fs) <==> f in fs && |f.files| > 0
  {
    if fs != [] {
      KeepNonEmptyMembers(fs[1..], f);
      assert fs == [fs[0]] + fs[1..];
    }
  }

  /** The filter keeps the order the folders were assembled in. */
  lemma {:induction false} KeepNonEmptyConcat(a: seq<DriveFolder>, b: seq<DriveFolder>)
    ensures KeepNonEmpty(a + b) == KeepNonEmpty(a) + KeepNonEmpty(b)
  {
    if a == [] {
      assert a + b == b;
    } else {
      assert (a + b)[1..] == a[1..] + b;
      KeepNonEmptyConcat(a[1..], b);
    }
  }

  /** When no folder is empty, the filter changes nothing. */
  lemma {:induction false} KeepNonEmptyNoop(fs: seq<DriveFolder>)
    requires forall i :: 0 <= i < |fs| ==> |fs[i].files| > 0
    ensures KeepNonEmpty(fs) == fs
  {
    if fs != [] {
      KeepNonEmptyNoop(fs[1..]);
      assert fs == [fs[0]] + fs[1..];
    }
  }

  /** What one run of `fetchDriveFolders` ends with. */
  datatype FetchOutcome = Loaded(folders: seq<DriveFolder>) | Failed(message: string)

  /** The whole fetch as a function of the configuration and the responses. */
  function FetchResult(apiKey: string, folderId: string, root: RootResponse,
                       filesFor: FolderEntry -> FilesResponse): (r: FetchOutcome)
    ensures (apiKey == "" || folderId == "") ==> r == Failed(NotConfiguredMessage)
    ensures apiKey != "" && folderId != "" && root.RootNotOk? ==> r == Failed(RootErrorMessage(root.apiMessage))
    ensures apiKey != "" && folderId != "" && root.RootThrew? ==> r == Failed(ThrownMessage(root.thrown))
    ensures apiKey != "" && folderId != "" && root.RootOk? ==>
              var subs := if root.entries.Some? then root.entries.value else [];
              match Assemble(subs, filesFor)
              case AllSettled(fs) => r == Loaded(KeepNonEmpty(fs))
              case Rejected(t) => r == Failed(ThrownMessage(t))
  {
    if apiKey == "" || folderId == "" then Failed(NotConfiguredMessage)
    else
      match root
      case RootNotOk(m) => Failed(RootErrorMessage(m))
      case RootThrew(t) => Failed(ThrownMessage(t))
      case RootOk(entries) =>
        var subs := if entries.Some? then entries.value else [];
        match Assemble(subs, filesFor)
        case Rejected(t) => Failed(ThrownMessage(t))
        case AllSettled(fs) => Loaded(KeepNonEmpty(fs))
  }

  /** Without configuration no response is consulted: the outcome is the
      same whatever the network would have answered. */
  lemma UnconfiguredMakesNoRequest(apiKey: string, folderId: string,
                                   root1: RootResponse, filesFor1: FolderEntry -> FilesResponse,
                                   root2: RootResponse, filesFor2: FolderEntry -> FilesResponse)
    requires apiKey == "" || folderId == ""
    ensures FetchResult(apiKey, folderId, root1, filesFor1) == FetchResult(apiKey, folderId, root2, filesFor2)
  {
  }

  /** With the configuration set and the root listing OK, the fetch loads
      exactly when no sub-folder listing throws: a non-OK sub-folder listing
      only empties that folder, while a thrown one fails the whole fetch with
      the first such throw's message. */
  lemma OkRootLoadsUnlessListingThrows(apiKey: string, folderId: string, entries: Option<seq<FolderEntry>>,
                                       filesFor: FolderEntry -> FilesResponse)
    requires apiKey != "" && folderId != ""
    ensures var subs := if entries.Some? then entries.value else [];
            var r := FetchResult(apiKey, folderId, RootOk(entries), filesFor);
            (r.Loaded? <==> forall i :: 0 <= i < |subs| ==> !filesFor(subs[i]).FilesThrew?)
            && (r.Failed? ==> exists i :: (0 <= i < |subs| && filesFor(subs[i]).FilesThrew?
                  && r.message == ThrownMessage(filesFor(subs[i]).thrown)
                  && forall j :: 0 <= j < i ==> !filesFor(subs[j]).FilesThrew?))
  {
  }

  /** A successful fetch yields exactly the non-empty folders, each carrying
      its sub-folder's id and name and the files its listing returned; every
      sub-folder whose listing has files is among them. */
  lemma LoadedFolders(apiKey: string, folderId: string, entries: Option<seq<FolderEntry>>,
                      filesFor: FolderEntry -> FilesResponse)
    requires FetchResult(apiKey, folderId, RootOk(entries), filesFor).Loaded?
    ensures var fs := FetchResult(apiKey, folderId, RootOk(entries), filesFor).folders;
            var subs := if entries.Some? then entries.value else [];
            (forall f :: f in fs ==> |f.files| > 0)
            && (forall f :: f in fs ==> exists i :: (0 <= i < |subs| && f.id == subs[i].id
                  && f.name == subs[i].name && f.files == FilesOf(filesFor(subs[i]))))
            && (forall i :: 0 <= i < |subs| && !filesFor(subs[i]).FilesThrew? && |FilesOf(filesFor(subs[i]))| > 0 ==>
                  DriveFolder(subs[i].id, subs[i].name, FilesOf(filesFor(subs[i]))) in fs)
  {
    var subs := if entries.Some? then entries.value else [];
    var all := Assemble(subs, filesFor).folders;
    var fs := KeepNonEmpty(all);
    forall f | f in fs ensures |f.files| > 0 && exists i :: (0 <= i < |subs| && f.id == subs[i].id
                  && f.name == subs[i].name && f.files == FilesOf(filesFor(subs[i]))) {
      KeepNonEmptyMembers(all, f);
      var i :| 0 <= i < |all| && all[i] == f;
    }
    forall i | 0 <= i < |subs| && !filesFor(subs[i]).FilesThrew? && |FilesOf(filesFor(subs[i]))| > 0
      ensures DriveFolder(subs[i].id, subs[i].name, FilesOf(filesFor(subs[i]))) in fs
    {
      assert all[i] == DriveFolder(subs[i].id, subs[i].name, FilesOf(filesFor(subs[i])));
      KeepNonEmptyMembers(all, all[i]);
    }
  }

  /** The hook's state. `apiKey` and `folderId` are the configured values. */
  class DrivePortfolio {
    var folders: seq<DriveFolder>
    var loading: bool
    var error: Option<string>
    const apiKey: string
    const folderId: string

    /** The initial state before the mount-time fetch. */
    constructor (envApiKey: Option<string>, envFolderId: Option<string>)
      ensures apiKey == ConfigValue(envApiKey) && folderId == ConfigValue(envFolderId)
      ensures folders == [] && loading && error == None
    {
      apiKey := ConfigValue(envApiKey);
      folderId := ConfigValue(envFolderId);
      folders := [];
      loading := true;
      error := None;
    }

    /** `fetchDriveFolders` (also `refetch`): the in-flight step, then the
        completion once the responses are in. */
    method FetchDriveFolders(root: RootResponse, filesFor: FolderEntry -> FilesResponse)
      modifies this`loading, this`error, this`folders
      ensures !loading
      ensures match FetchResult(apiKey, folderId, root, filesFor)
              case Loaded(fs) => folders == fs && error == None
              case Failed(m) => folders == old(folders) && error == Some(m)
    {
      BeginFetch();
      CompleteFetch(root, filesFor);
    }

    /** What the page sees while the requests are outstanding: loading, no
        error, and the folders of the previous fetch. */
    method BeginFetch()
      modifies this`loading, this`error
      ensures loading && error == None
      ensures folders == old(folders)
    {
      loading := true;
      error := None;
    }

    /** The end of a fetch, which follows `BeginFetch`: on success the folders are replaced and the error
        cleared; on any failure the error is set and the previous folders
        stay. Loading always ends false. */
    method CompleteFetch(root: RootResponse, filesFor: FolderEntry -> FilesResponse)
      requires loading && error == None
      modifies this`loading, this`error, this`folders
      ensures !loading
      ensures match FetchResult(apiKey, folderId, root, filesFor)
              case Loaded(fs) => folders == fs && error == None
              case Failed(m) => folders == old(folders) && error == Some(m)
    {
      if apiKey == "" || folderId == "" {
        error := Some(NotConfiguredMessage);
        loading := false;
        return;
      }
      match root {
        case RootNotOk(m) =>
          error := Some(RootErrorMessage(m));
        case RootThrew(t) =>
          error := Some(ThrownMessage(t));
        case RootOk(entries) =>
          var subs := if entries.Some? then entries.value else [];
          var joined := Assemble(subs, filesFor);
          match joined {
            case Rejected(t) =>
              error := Some(ThrownMessage(t));
            case AllSettled(fs) =>
              folders := KeepNonEmpty(fs);
          }
      }
      loading := false;
    }
  }

  // ---------------------------------------------------------------------
  // URL builders and media-type predicates

  const ThumbnailSmall: string := "=s220"
  const ThumbnailLarge: string := "=s800"
  const ViewUrlPrefix: string := "https://drive.google.com/uc?export=view&id="
  const EmbedUrlPrefix: string := "https://drive.google.com/file/d/"
  const EmbedUrlSuffix: string := "/preview"

  /** A display URL: the thumbnail link with its size raised, else the
      generic view URL for the file id. */
  function GetImageUrl(file: DriveFile): (r: string)
    ensures !Truthy(file.thumbnailLink) ==> r == ViewUrlPrefix + file.id
    ensures Truthy(file.thumbnailLink) ==> r == ReplaceFirst(file.thumbnailLink.value, ThumbnailSmall, ThumbnailLarge)
  {
    if Truthy(file.thumbnailLink) then ReplaceFirst(file.thumbnailLink.value, ThumbnailSmall, ThumbnailLarge)
    else ViewUrlPrefix + file.id
  }

  /** The thumbnail rewrite changes only the size digits of the leftmost
      `=s220`, and nothing at all when there is none. */
  lemma ImageUrlRewritesSize(file: DriveFile)
    requires Truthy(file.thumbnailLink)
    ensures var t := file.thumbnailLink.value;
            var r := GetImageUrl(file);
            |r| == |t|
            && ((forall i: nat :: !OccursAt(t, ThumbnailSmall, i)) ==> r == t)
            && (forall i: nat :: OccursAt(t, ThumbnailSmall, i) && (forall j: nat :: j < i ==> !OccursAt(t, ThumbnailSmall, j)) ==>
                  OccursAt(r, ThumbnailLarge, i)
                  && forall k :: 0 <= k < |t| && (k < i + 2 || i + 5 <= k) ==> r[k] == t[k])
  {
    var t := file.thumbnailLink.value;
    match IndexOf(t, ThumbnailSmall)
    case None =>
    case Some(i) =>
      SizeRewrite(t, i);
  }

  /** Splicing `=s800` over an occurrence of `=s220` at `i`. */
  lemma SizeRewrite(t: string, i: nat)
    requires OccursAt(t, ThumbnailSmall, i)
    ensures var r := t[..i] + ThumbnailLarge + t[i + 5..];
            |r| == |t| && OccursAt(r, ThumbnailLarge, i)
            && forall k :: 0 <= k < |t| && (k < i + 2 || i + 5 <= k) ==> r[k] == t[k]
  {
    var r := t[..i] + ThumbnailLarge + t[i + 5..];
    assert r[i..i + 5] == ThumbnailLarge;
    forall k | 0 <= k < |t| && (k < i + 2 || i + 5 <= k) ensures r[k] == t[k] {
      if i <= k < i + 2 {
        assert t[i..i + 5][k - i] == ThumbnailSmall[k - i];
      }
    }
  }

  /** Without a thumbnail the view URL keeps the id recoverable. */
  lemma ViewUrlCarriesId(file: DriveFile)
    requires !Truthy(file.thumbnailLink)
    ensures var r := GetImageUrl(file);
            |r| == |ViewUrlPrefix| + |file.id| && r[|ViewUrlPrefix|..] == file.id
  {
  }

  /** `https://drive.google.com/file/d/<id>/preview`. */
  function GetVideoEmbedUrl(file: DriveFile): (r: string)
    ensures |r| == |EmbedUrlPrefix| + |file.id| + |EmbedUrlSuffix|
    ensures r[..|EmbedUrlPrefix|] == EmbedUrlPrefix
    ensures r[|EmbedUrlPrefix|..|r| - |EmbedUrlSuffix|] == file.id
    ensures r[|r| - |EmbedUrlSuffix|..] == EmbedUrlSuffix
  {
    EmbedUrlPrefix + file.id + EmbedUrlSuffix
  }

  /** The embed URL determines the file id: different ids never share one. */
  lemma EmbedUrlInjective(a: DriveFile, b: DriveFile)
    requires GetVideoEmbedUrl(a) == GetVideoEmbedUrl(b)
    ensures a.id == b.id
  {
    var ra := GetVideoEmbedUrl(a);
    assert a.id == ra[|EmbedUrlPrefix|..|ra| - |EmbedUrlSuffix|];
  }

  /** `mimeType.includes('video')`: "video" occurs anywhere in the MIME
      type, not only as its top-level type. */
  function IsVideo(file: DriveFile): (r: bool)
    ensures r <==> exists i: nat :: OccursAt(file.mimeType, "video", i)
  {
    Includes(file.mimeType, "video")
  }

  /** `mimeType.includes('image')`. */
  function IsImage(file: DriveFile): (r: bool)
    ensures r <==> exists i: nat :: OccursAt(file.mimeType, "image", i)
  {
    Includes(file.mimeType, "image")
  }

  /** The two predicates are independent: a MIME type can satisfy both, or
      neither. */
  lemma MediaPredicatesIndependent(f: DriveFile)
    ensures (f.mimeType == "image/x-video") ==> IsImage(f) && IsVideo(f)
    ensures (f.mimeType == "application/pdf") ==> !IsImage(f) && !IsVideo(f)
  {
    if f.mimeType == "image/x-video" {
      assert OccursAt(f.mimeType, "image", 0);
      assert OccursAt(f.mimeType, "video", 8);
    }
    if f.mimeType == "application/pdf" {
      forall i: nat ensures !OccursAt(f.mimeType, "image", i) && !OccursAt(f.mimeType, "video", i) {
        if i + 5 <= |f.mimeType| {
          assert f.mimeType[i..i + 5][0] == f.mimeType[i] && f.mimeType[i..i + 5][1] == f.mimeType[i + 1];
        }
      }
    }
  }
}

=== FILE: PortfolioPage.dfy ===
/** The portfolio page: a category filter over the video store's list, the
    empty-state rule, and deletion delegated to the store. */
module PortfolioPage {
  import opened Common
  import opened VideoPortfolio

  /** The filter buttons, in display order; `All` disables filtering. */
  const PageCategories: seq<string> := ["All", "Events", "Commercial", "Product & Food", "Shoots", "Color Grading", "Documentary"]
  const AllCategories: string := "All"

  /** `videos.filter(v => v.category === active)`. */
  function InCategory(videos: seq<VideoItem>, active: string): (r: seq<VideoItem>)
    ensures |r| <= |videos|
    ensures forall v :: v in r ==> v in videos && v.category == active
  {
    if videos == [] then []
    else (if videos[0].category == active then [videos[0]] else []) + InCategory(videos[1..], active)
  }

  /** `filteredVideos`: the whole list under `All`, else one category. */
  function FilterVideos(videos: seq<VideoItem>, active: string): (r: seq<VideoItem>)
    ensures active == AllCategories ==> r == videos
    ensures |r| <= |videos|
    ensures forall v :: v in r ==> v in videos
  {
    if active == AllCategories then videos else InCategory(videos, active)
  }

  /** Under a specific category, exactly the entries of that category
      remain, in their original order, and never more than there were. */
  lemma {:induction false} InCategoryMembers(videos: seq<VideoItem>, active: string, v: VideoItem)
    ensures v in InCategory(videos, active) <==> v in videos && v.category == active
  {
    if videos != [] {
      InCategoryMembers(videos[1..], active, v);
      assert videos == [videos[0]] + videos[1..];
    }
  }

  lemma {:induction false} InCategoryConcat(a: seq<VideoItem>, b: seq<VideoItem>, active: string)
    ensures InCategory(a + b, active) == InCategory(a, active) + InCategory(b, active)
  {
    if a == [] {
      assert a + b == b;
    } else {
      var x, rest := a[0], a[1..];
      var h := if x.category == active then [x] else [];
      assert a == [x] + rest && a + b == [x] + (rest + b);
      calc {
        InCategory(a + b, active);
        == { InCategoryCons(x, rest + b, active); }
        h + InCategory(rest + b, active);
        == { InCategoryConcat(rest, b, active); }
        h + (InCategory(rest, active) + InCategory(b, active));
        ==
        (h + InCategory(rest, active)) + InCategory(b, active);
        == { InCategoryCons(x, rest, active); }
        InCategory(a, active) + InCategory(b, active);
      }
    }
  }

  /** One step of the filter. */
  lemma InCategoryCons(x: VideoItem, xs: seq<VideoItem>, active: string)
    ensures InCategory([x] + xs, active) == (if x.category == active then [x] else []) + InCategory(xs, active)
  {
    assert ([x] + xs)[1..] == xs;
  }

  /** The filter and the delete commute: deleting an id and then filtering
      shows what filtering and then deleting would show. */
  lemma {:induction false} FilterCommutesWithDelete(videos: seq<VideoItem>, active: string, id: string)
    ensures FilterVideos(WithoutId(videos, id), active) == WithoutId(FilterVideos(videos, active), id)
  {
    if active != AllCategories && videos != [] {
      var head, tail := videos[0], videos[1..];
      assert videos == [head] + tail;
      FilterCommutesWithDelete(tail, active, id);
      WithoutIdConcat([head], tail, id);
      InCategoryConcat([head], tail, active);
      InCategoryConcat(WithoutId([head], id), WithoutId(tail, id), active);
      WithoutIdConcat(InCategory([head], active), InCategory(tail, active), id);
      assert [head][1..] == [];
    }
  }

  /** A category has no entries exactly when none of the list's entries
      carries it. */
  lemma InCategoryEmptyIff(videos: seq<VideoItem>, active: string)
    ensures InCategory(videos, active) == [] <==> forall v :: v in videos ==> v.category != active
  {
    forall v | v in videos {
      InCategoryMembers(videos, active, v);
    }
    if InCategory(videos, active) != [] {
      InCategoryMembers(videos, active, InCategory(videos, active)[0]);
    }
  }

  /** "No videos found in this category." renders instead of the grid
      exactly when no entry passes the filter: under `All` when the list is
      empty, under a category when no entry carries it. */
  function ShowsEmptyState(videos: seq<VideoItem>, active: string): (r: bool)
    ensures r <==> forall v :: v in videos ==> active != AllCategories && v.category != active
  {
    InCategoryEmptyIff(videos, active);
    FilterVideos(videos, active) == []
  }

  /** The "Add Video" hint renders only inside the empty state and only to
      an authenticated admin. */
  function ShowsAddHint(videos: seq<VideoItem>, active: string, isAuthenticated: bool): (r: bool)
    ensures r <==> isAuthenticated && forall v :: v in videos ==> active != AllCategories && v.category != active
  {
    ShowsEmptyState(videos, active) && isAuthenticated
  }

  class PortfolioPage {
    var activeCategory: string
    var selectedVideo: Option<VideoItem>
    const store: VideoPortfolio

    constructor (store: VideoPortfolio)
      ensures this.store == store && activeCategory == "All" && selectedVideo == None
    {
      this.store := store;
      activeCategory := AllCategories;
      selectedVideo := None;
    }

    /** `filteredVideos` for the current state. */
    function FilteredVideos(): (r: seq<VideoItem>)
      reads this, store
      ensures activeCategory == AllCategories ==> r == store.videos
      ensures forall v :: v in r ==> v in store.videos && (activeCategory == AllCategories || v.category == activeCategory)
    {
      FilterVideos(store.videos, activeCategory)
    }

    /** A video card's play button opens the player on that video. */
    method PlayVideo(video: VideoItem)
      modifies this`selectedVideo
      ensures selectedVideo == Some(video)
    {
      selectedVideo := Some(video);
    }

    /** Closing the player clears the selection. */
    method ClosePlayer()
      modifies this`selectedVideo
      ensures selectedVideo == None
    {
      selectedVideo := None;
    }

    /** A category button selects that category. */
    method SelectCategory(category: string)
      modifies this`activeCategory
      ensures activeCategory == category
      ensures category == AllCategories ==> FilteredVideos() == store.videos
    {
      activeCategory := category;
    }

    /** `handleDelete`: passes the id to the store's delete. */
    method HandleDelete(id: string)
      modifies store`videos, store.storage
      ensures store.videos == WithoutId(old(store.videos), id)
      ensures store.storage.entry == Items(store.videos)
      ensures FilteredVideos() == WithoutId(old(FilteredVideos()), id)
    {
      FilterCommutesWithDelete(store.videos, activeCategory, id);
      store.DeleteVideo(id);
    }
  }
}

=== FILE: PortfolioSection.dfy ===
/** The gallery section of the single page: which folder tab is active,
    which folder's files the grid shows, what clicking a tile opens, the
    video-tile thumbnail, and which of the loading / error / gallery / empty
    blocks render. It reads the Drive gallery hook's state. */
module PortfolioSection {
  import opened Common
  import opened DrivePortfolio

  datatype MediaType = ImageMedia | VideoMedia

  /** The file open in the media viewer and how it is shown. */
  datatype SelectedMedia = SelectedMedia(file: DriveFile, kind: MediaType)

  /** The render-time default: with no (or an empty) active name and at
      least one folder, the first folder's name becomes active. */
  function DefaultFolder(active: Option<string>, folders: seq<DriveFolder>): (r: Option<string>)
    ensures Truthy(active) ==> r == active
    ensures !Truthy(active) && |folders| > 0 ==> r == Some(folders[0].name)
    ensures !Truthy(active) && |folders| == 0 ==> r == active
  {
    if !Truthy(active) && |folders| > 0 then Some(folders[0].name) else active
  }

  /** Applying the default a second time changes nothing, as a value. This
      does not say the render settles: when the first folder's name is `''`,
      `activeFolder` stays falsy after the default and the component sets it
      again on every render. */
  lemma DefaultFolderIdempotent(active: Option<string>, folders: seq<DriveFolder>)
    ensures DefaultFolder(DefaultFolder(active, folders), folders) == DefaultFolder(active, folders)
  {
  }

  /** `folders.find(f => f.name === active)`: the first folder with that
      name; a null active name matches nothing. */
  function FindFolder(folders: seq<DriveFolder>, active: Option<string>): (r: Option<DriveFolder>)
    ensures r.Some? ==> exists i :: 0 <= i < |folders| && folders[i] == r.value
                         && active == Some(folders[i].name)
                         && forall j :: 0 <= j < i ==> active != Some(folders[j].name)
    ensures r.None? <==> forall i :: 0 <= i < |folders| ==> active != Some(folders[i].name)
  {
    if folders == [] then None
    else if active == Some(folders[0].name) then Some(folders[0])
    else
      var rest := FindFolder(folders[1..], active);
      if rest.Some? then
        var i :| 0 <= i < |folders[1..]| && folders[1..][i] == rest.value
                 && active == Some(folders[1..][i].name)
                 && forall j :: 0 <= j < i ==> active != Some(folders[1..][j].name);
        assert folders[i + 1] == rest.value;
        rest
      else
        rest
  }

  /** Once the default applies to a non-empty list, the grid shows the
      first folder. */
  lemma DefaultSelectsFirstFolder(active: Option<string>, folders: seq<DriveFolder>)
    requires !Truthy(active) && |folders| > 0
    ensures FindFolder(folders, DefaultFolder(active, folders)) == Some(folders[0])
  {
  }

  /** What a click on a tile opens: video when the MIME type says video,
      image otherwise. */
  function MediaKind(file: DriveFile): (k: MediaType)
    ensures k == VideoMedia <==> IsVideo(file)
  {
    if IsVideo(file) then VideoMedia else ImageMedia
  }

  const ThumbnailPrefix: string := "https://drive.google.com/thumbnail?id="
  const ThumbnailSuffix: string := "&sz=w400"

  /** The picture on a video tile: the thumbnail link when present and
      non-empty, else the Drive thumbnail endpoint for the file id. */
  function VideoThumbnail(file: DriveFile): (r: string)
    ensures Truthy(file.thumbnailLink) ==> r == file.thumbnailLink.value
    ensures !Truthy(file.thumbnailLink) ==>
              |r| == |ThumbnailPrefix| + |file.id| + |ThumbnailSuffix|
              && r[..|ThumbnailPrefix|] == ThumbnailPrefix
              && r[|ThumbnailPrefix|..|r| - |ThumbnailSuffix|] == file.id
              && r[|r| - |ThumbnailSuffix|..] == ThumbnailSuffix
  {
    if Truthy(file.thumbnailLink) then file.thumbnailLink.value
    else ThumbnailPrefix + file.id + ThumbnailSuffix
  }

  /** The folder tabs and media grid render: only once loading is over,
      with no error message to show, and with some folder. */
  function ShowsGallery(loading: bool, error: Option<string>, folders: seq<DriveFolder>): (r: bool)
    ensures r <==> !loading && (error.None? || error.value == "") && folders != []
  {
    !loading && !Truthy(error) && |folders| > 0
  }

  /** "No portfolio items found." renders: exactly when loading is over with
      no error message and the gallery has nothing to show. */
  function ShowsEmptyState(loading: bool, error: Option<string>, folders: seq<DriveFolder>): (r: bool)
    ensures r <==> !loading && (error.None? || error.value == "") && folders == []
    ensures r <==> !loading && !Truthy(error) && !ShowsGallery(loading, error, folders)
  {
    !loading && !Truthy(error) && |folders| == 0
  }

  /** Gallery and empty state never render together; once loading is over
      without an error exactly one of them renders; while loading or after
      an error neither does. */
  lemma RenderGuards(loading: bool, error: Option<string>, folders: seq<DriveFolder>)
    ensures !(ShowsGallery(loading, error, folders) && ShowsEmptyState(loading, error, folders))
    ensures !loading && !Truthy(error) ==>
              ShowsGallery(loading, error, folders) || ShowsEmptyState(loading, error, folders)
    ensures loading || Truthy(error) ==>
              !ShowsGallery(loading, error, folders) && !ShowsEmptyState(loading, error, folders)
  {
  }

  class PortfolioSection {
    var activeFolder: Option<string>
    var selectedMedia: Option<SelectedMedia>
    /** The gallery hook's state. */
    const drive: DrivePortfolio

    constructor (drive: DrivePortfolio)
      ensures this.drive == drive && activeFolder == None && selectedMedia == None
    {
      this.drive := drive;
      activeFolder := None;
      selectedMedia := None;
    }

    /** The folder whose files the grid shows. */
    function CurrentFolder(): (r: Option<DriveFolder>)
      reads this, drive
      ensures r.Some? ==> exists i :: 0 <= i < |drive.folders| && drive.folders[i] == r.value
                           && activeFolder == Some(r.value.name)
                           && forall j :: 0 <= j < i ==> activeFolder != Some(drive.folders[j].name)
      ensures r.None? <==> forall f :: f in drive.folders ==> activeFolder != Some(f.name)
    {
      FindFolder(drive.folders, activeFolder)
    }

    /** The default-folder rule run during render; an active folder that is
        already set is never overwritten. */
    method ApplyDefaultFolder()
      modifies this`activeFolder
      ensures activeFolder == DefaultFolder(old(activeFolder), drive.folders)
      ensures !Truthy(old(activeFolder)) && |drive.folders| > 0 ==> CurrentFolder() == Some(drive.folders[0])
    {
      if !Truthy(activeFolder) && |drive.folders| > 0 {
        activeFolder := Some(drive.folders[0].name);
      }
    }

    /** A folder tab makes that folder active. */
    method ClickTab(folder: DriveFolder)
      modifies this`activeFolder
      ensures activeFolder == Some(folder.name)
      ensures folder in drive.folders ==> CurrentFolder().Some? && CurrentFolder().value.name == folder.name
    {
      activeFolder := Some(folder.name);
    }

    /** A tile opens the viewer on its file. */
    method SelectFile(file: DriveFile)
      modifies this`selectedMedia
      ensures selectedMedia == Some(SelectedMedia(file, MediaKind(file)))
    {
      selectedMedia := Some(SelectedMedia(file, if IsVideo(file) then VideoMedia else ImageMedia));
    }

    /** Clicking the viewer's backdrop closes it. */
    method CloseViewer()
      modifies this`selectedMedia
      ensures selectedMedia == None
    {
      selectedMedia := None;
    }
  }
}

=== FILE: SinglePageHeader.dfy ===
/** The single-page header: the scrolled-style threshold, the scroll-spy
    that highlights the section being read, smooth scrolling to a section
    below the fixed header, and the mobile menu toggle. Pixel values are
    integers; the element lookups and measurements are inputs. */
module SinglePageHeader {
  import opened Common

  /** The ids of the navigation targets, in page order. */
  const NavIds: seq<string> := ["hero", "portfolio", "about", "services", "experience", "contact"]

  /** Beyond this scroll position the header takes its scrolled style. */
  const ScrolledThreshold: int := 50
  /** A section counts as reached this far before its top scrolls past. */
  const SpyOffset: int := 100
  /** The fixed header's height, left free above a scrolled-to section. */
  const HeaderOffset: int := 80

  /** Section `i` exists and its top is at or above `scrollPos`. */
  predicate Reached(offsets: seq<Option<int>>, i: nat, scrollPos: int)
    requires i < |offsets|
  {
    offsets[i].Some? && offsets[i].value <= scrollPos
  }

  /** The highest-index reached section among the first `n`, if any. */
  function LastReached(offsets: seq<Option<int>>, n: nat, scrollPos: int): (r: Option<nat>)
    requires n <= |offsets|
    ensures r.Some? ==> r.value < n && Reached(offsets, r.value, scrollPos)
    ensures r.Some? ==> forall j :: r.value < j < n ==> !Reached(offsets, j, scrollPos)
    ensures r.None? ==> forall j :: 0 <= j < n ==> !Reached(offsets, j, scrollPos)
  {
    if n == 0 then None
    else if Reached(offsets, n - 1, scrollPos) then Some(n - 1)
    else LastReached(offsets, n - 1, scrollPos)
  }

  /** Scrolling further down never moves the highlight to an earlier
      section: what was reached stays reached. */
  lemma {:induction false} ScrollSpyMonotone(offsets: seq<Option<int>>, n: nat, pos1: int, pos2: int)
    requires n <= |offsets| && pos1 <= pos2
    requires LastReached(offsets, n, pos1).Some?
    ensures LastReached(offsets, n, pos2).Some?
    ensures LastReached(offsets, n, pos1).value <= LastReached(offsets, n, pos2).value
  {
    var k := LastReached(offsets, n, pos1).value;
    assert Reached(offsets, k, pos2);
  }

  /** The reverse scan of `handleScroll`: from the last section down to the
      first, stopping at the first one reached. */
  method FindActiveSection(offsets: seq<Option<int>>, scrollPos: int) returns (found: Option<nat>)
    ensures found.Some? ==> found.value < |offsets| && Reached(offsets, found.value, scrollPos)
    ensures found.Some? ==> forall j :: found.value < j < |offsets| ==> !Reached(offsets, j, scrollPos)
    ensures found.None? ==> forall j :: 0 <= j < |offsets| ==> !Reached(offsets, j, scrollPos)
  {
    var i: int := |offsets| - 1;
    while i >= 0
      invariant -1 <= i < |offsets|
      invariant forall j :: i < j < |offsets| ==> !Reached(offsets, j, scrollPos)
    {
      if offsets[i].Some? && offsets[i].value <= scrollPos {
        return Some(i);
      }
      i := i - 1;
    }
    return None;
  }

  class SinglePageHeader {
    var isScrolled: bool
    var isMobileMenuOpen: bool
    var activeSection: string

    constructor ()
      ensures !isScrolled && !isMobileMenuOpen && activeSection == "hero"
    {
      isScrolled := false;
      isMobileMenuOpen := false;
      activeSection := NavIds[0];
    }

    /** `handleScroll`: `offsets[i]` is the `offsetTop` of the element with
        id `NavIds[i]`, or `None` when there is no such element. */
    method HandleScroll(scrollY: int, offsets: seq<Option<int>>)
      requires |offsets| == |NavIds|
      modifies this`isScrolled, this`activeSection
      ensures isScrolled <==> scrollY > ScrolledThreshold
      ensures match LastReached(offsets, |offsets|, scrollY + SpyOffset)
              case Some(k) => activeSection == NavIds[k]
              case None => activeSection == old(activeSection)
      ensures isMobileMenuOpen == old(isMobileMenuOpen)
    {
      isScrolled := scrollY > ScrolledThreshold;
      var scrollPos := scrollY + SpyOffset;
      var found := FindActiveSection(offsets, scrollPos);
      if found.Some? {
        activeSection := NavIds[found.value];
      }
    }

    /** `scrollToSection`: `viewportTops` gives each existing element's
        viewport top, `bodyTop` the body's. Returns where the window is
        scrolled to, if anywhere; the mobile menu closes either way. */
    method ScrollToSection(id: string, viewportTops: map<string, int>, bodyTop: int) returns (scrollTo: Option<int>)
      modifies this`isMobileMenuOpen
      ensures id !in viewportTops ==> scrollTo == None
      ensures id in viewportTops ==> scrollTo == Some(viewportTops[id] - bodyTop - HeaderOffset)
      ensures !isMobileMenuOpen
    {
      scrollTo := None;
      if id in viewportTops {
        var elementPosition := viewportTops[id] - bodyTop;
        scrollTo := Some(elementPosition - HeaderOffset);
      }
      isMobileMenuOpen := false;
    }

    /** The menu button flips the mobile menu. */
    method ToggleMobileMenu()
      modifies this`isMobileMenuOpen
      ensures isMobileMenuOpen == !old(isMobileMenuOpen)
    {
      isMobileMenuOpen := !isMobileMenuOpen;
    }
  }
}

=== FILE: VideoPortfolio.dfy ===
/** The admin-curated video list of the portfolio page (the
    `useVideoPortfolio` hook): a list of video entries persisted in the
    browser's local storage, a shared-password gate that toggles an admin
    flag, and the parser that pulls a YouTube video id out of a URL. */
module VideoPortfolio {
  import opened Common

  /** One admin-managed video entry. */
  datatype VideoItem = VideoItem(id: string, youtubeId: string, title: string, category: string, createdAt: string)

  /** What the storage key `portfolio_videos` holds, after `JSON.parse`:
      nothing (no entry or `''`), a list of entries, or text that does not
      parse. */
  datatype Stored = Missing | Items(videos: seq<VideoItem>) | Malformed

  /** The password used when the environment supplies none (or `''`). */
  const DefaultAdminPassword: string := "admin123"

  /** `import.meta.env.VITE_ADMIN_PASSWORD || 'admin123'`. */
  function AdminPassword(env: Option<string>): (r: string)
    ensures r != ""
    ensures Truthy(env) ==> r == env.value
    ensures !Truthy(env) ==> r == DefaultAdminPassword
  {
    if Truthy(env) then env.value else DefaultAdminPassword
  }

  /** The three sample entries seeded into empty storage; each `createdAt` is
      a separate reading of the clock. */
  function DefaultVideos(t1: string, t2: string, t3: string): (r: seq<VideoItem>)
    ensures |r| == 3 && r[0].id == "1" && r[1].id == "2" && r[2].id == "3"
    ensures r[0].createdAt == t1 && r[1].createdAt == t2 && r[2].createdAt == t3
  {
    [ VideoItem("1", "dQw4w9WgXcQ", "Cinematic Wedding Highlight", "Events", t1),
      VideoItem("2", "jNQXAC9IVRw", "Brand Story - Startup", "Commercial", t2),
      VideoItem("3", "9bZkp7q19f0", "Product Launch Film", "Product & Food", t3) ]
  }

  // ---------------------------------------------------------------------
  // Removing by id: `videos.filter(v => v.id !== id)`

  /** The entries whose id differs from `id`, in their original order. */
  function WithoutId(xs: seq<VideoItem>, id: string): (r: seq<VideoItem>)
    ensures |r| <= |xs|
    ensures forall v :: v in r ==> v in xs && v.id != id
  {
    if xs == [] then []
    else (if xs[0].id == id then [] else [xs[0]]) + WithoutId(xs[1..], id)
  }

  /** The number of entries carrying `id`. */
  function CountId(xs: seq<VideoItem>, id: string): nat
  {
    if xs == [] then 0 else (if xs[0].id == id then 1 else 0) + CountId(xs[1..], id)
  }

  /** Filtering distributes over concatenation, which is what keeps the
      survivors in their original order. */
  lemma {:induction false} WithoutIdConcat(a: seq<VideoItem>, b: seq<VideoItem>, id: string)
    ensures WithoutId(a + b, id) == WithoutId(a, id) + WithoutId(b, id)
  {
    if a == [] {
      assert a + b == b;
    } else {
      assert (a + b)[1..] == a[1..] + b;
      WithoutIdConcat(a[1..], b, id);
    }
  }

  /** An entry survives the delete iff it was there and has another id. */
  lemma {:induction false} WithoutIdMembers(xs: seq<VideoItem>, id: string, v: VideoItem)
    ensures v in WithoutId(xs, id) <==> v in xs && v.id != id
  {
    if xs != [] {
      WithoutIdMembers(xs[1..], id, v);
      assert xs == [xs[0]] + xs[1..];
    }
  }

  /** Deleting an id that no entry carries leaves the list as it was. */
  lemma {:induction false} WithoutAbsentId(xs: seq<VideoItem>, id: string)
    requires forall i :: 0 <= i < |xs| ==> xs[i].id != id
    ensures WithoutId(xs, id) == xs
  {
    if xs != [] {
      WithoutAbsentId(xs[1..], id);
      assert xs == [xs[0]] + xs[1..];
    }
  }

  /** Every entry carrying the id is removed, and only those. */
  lemma {:induction false} WithoutIdLength(xs: seq<VideoItem>, id: string)
    ensures |WithoutId(xs, id)| == |xs| - CountId(xs, id)
    ensures CountId(xs, id) <= |xs|
  {
    if xs != [] {
      WithoutIdLength(xs[1..], id);
    }
  }

  /** When exactly one entry carries the id, deleting it removes exactly that
      entry and keeps the others in order. */
  lemma WithoutUniqueId(xs: seq<VideoItem>, id: string, k: nat)
    requires k < |xs| && xs[k].id == id
    requires forall i :: 0 <= i < |xs| && i != k ==> xs[i].id != id
    ensures WithoutId(xs, id) == xs[..k] + xs[k + 1..]
  {
    var pre, post := xs[..k], xs[k + 1..];
    forall i | 0 <= i < |pre| ensures pre[i].id != id {
      assert pre[i] == xs[i];
    }
    forall i | 0 <= i < |post| ensures post[i].id != id {
      assert post[i] == xs[k + 1 + i];
    }
    assert xs == pre + ([xs[k]] + post);
    WithoutMiddle(pre, xs[k], post, id);
  }

  /** The list split around the one entry carrying the id. */
  lemma WithoutMiddle(pre: seq<VideoItem>, v: VideoItem, post: seq<VideoItem>, id: string)
    requires v.id == id
    requires forall i :: 0 <= i < |pre| ==> pre[i].id != id
    requires forall i :: 0 <= i < |post| ==> post[i].id != id
    ensures WithoutId(pre + ([v] + post), id) == pre + post
  {
    var tail := [v] + post;
    WithoutIdConcat([v], post, id);
    WithoutSingle(v, id);
    WithoutAbsentId(post, id);
    assert WithoutId(tail, id) == [] + post == post;
    WithoutIdConcat(pre, tail, id);
    WithoutAbsentId(pre, id);
  }

  lemma WithoutSingle(v: VideoItem, id: string)
    requires v.id == id
    ensures WithoutId([v], id) == []
  {
    assert [v][1..] == [];
  }

  /** Deleting the id of an entry just appended (with an id nobody else
      has) undoes the append. */
  lemma AddThenDelete(xs: seq<VideoItem>, v: VideoItem)
    requires forall i :: 0 <= i < |xs| ==> xs[i].id != v.id
    ensures WithoutId(xs + [v], v.id) == xs
  {
    WithoutUniqueId(xs + [v], v.id, |xs|);
    assert (xs + [v])[..|xs|] == xs;
  }

  // ---------------------------------------------------------------------
  // The store itself

  /** The browser's local storage, reduced to the one key the store uses. */
  class LocalStorage {
    var entry: Stored

    constructor (initial: Stored)
      ensures entry == initial
    {
      entry := initial;
    }
  }

  /** The hook's state: the video list, the admin flag, the configured
      password and the storage it persists to. */
  class VideoPortfolio {
    var videos: seq<VideoItem>
    var isAuthenticated: bool
    const adminPassword: string
    const storage: LocalStorage

    /** A freshly mounted hook: empty list, logged out. */
    constructor (storage: LocalStorage, envPassword: Option<string>)
      ensures this.storage == storage && adminPassword == AdminPassword(envPassword)
      ensures videos == [] && !isAuthenticated
    {
      this.storage := storage;
      adminPassword := AdminPassword(envPassword);
      videos := [];
      isAuthenticated := false;
    }

    /** The mount-time load: seed and persist the defaults when storage is
        empty, adopt a parsed list, fall back to `[]` on a parse failure. */
    method Load(t1: string, t2: string, t3: string)
      modifies this`videos, storage
      ensures isAuthenticated == old(isAuthenticated)
      ensures old(storage.entry).Missing? ==>
                videos == DefaultVideos(t1, t2, t3) && storage.entry == Items(videos)
      ensures old(storage.entry).Items? ==>
                videos == old(storage.entry).videos && storage.entry == old(storage.entry)
      ensures old(storage.entry).Malformed? ==> videos == [] && storage.entry == Malformed
    {
      match storage.entry {
        case Items(xs) =>
          videos := xs;
        case Malformed =>
          videos := [];
        case Missing =>
          var defaults := DefaultVideos(t1, t2, t3);
          videos := defaults;
          storage.entry := Items(defaults);
      }
    }

    /** Exact comparison with the configured password; a wrong one leaves an
        existing login in place. */
    method Authenticate(password: string) returns (ok: bool)
      modifies this`isAuthenticated
      ensures ok <==> password == adminPassword
      ensures isAuthenticated == (old(isAuthenticated) || ok)
    {
      if password == adminPassword {
        isAuthenticated := true;
        return true;
      }
      return false;
    }

    method Logout()
      modifies this`isAuthenticated
      ensures !isAuthenticated
    {
      isAuthenticated := false;
    }

    /** Appends one entry (no duplicate check) and persists the new list.
        `newId` is `Date.now().toString()`, `createdAt` the ISO timestamp. */
    method AddVideo(youtubeId: string, title: string, category: string, newId: string, createdAt: string)
      modifies this`videos, storage
      ensures videos == old(videos) + [VideoItem(newId, youtubeId, title, category, createdAt)]
      ensures storage.entry == Items(videos)
    {
      var newVideo := VideoItem(newId, youtubeId, title, category, createdAt);
      var updated := videos + [newVideo];
      videos := updated;
      storage.entry := Items(updated);
    }

    /** Removes every entry carrying `id` and persists the rest. */
    method DeleteVideo(id: string)
      modifies this`videos, storage
      ensures videos == WithoutId(old(videos), id)
      ensures storage.entry == Items(videos)
    {
      var updated := WithoutId(videos, id);
      videos := updated;
      storage.entry := Items(updated);
    }
  }

  /** Add a video, then reload the page over the same storage: the reloaded
      list is the list before the add followed by the new entry. */
  method ReloadAfterAdd(initial: Stored, envPassword: Option<string>, t1: string, t2: string, t3: string,
                        youtubeId: string, title: string, category: string, newId: string, createdAt: string)
    returns (before: seq<VideoItem>, after: seq<VideoItem>)
    ensures initial.Items? ==> before == initial.videos
    ensures initial.Missing? ==> before == DefaultVideos(t1, t2, t3)
    ensures initial.Malformed? ==> before == []
    ensures after == before + [VideoItem(newId, youtubeId, title, category, createdAt)]
  {
    var storage := new LocalStorage(initial);
    var first := new VideoPortfolio(storage, envPassword);
    first.Load(t1, t2, t3);
    before := first.videos;
    first.AddVideo(youtubeId, title, category, newId, createdAt);
    var second := new VideoPortfolio(storage, envPassword);
    second.Load(t1, t2, t3);
    after := second.videos;
  }

  /** The empty string never opens the admin gate, whatever is configured. */
  lemma EmptyPasswordRejected(envPassword: Option<string>)
    ensures "" != AdminPassword(envPassword)
  {
  }

  // ---------------------------------------------------------------------
  // extractYouTubeId

  const WatchMarker: string := "youtube.com/watch?v="
  const ShortMarker: string := "youtu.be/"
  const EmbedMarker: string := "youtube.com/embed/"

  /** Characters that end the captured id in the URL pattern: `[^&\n?#]`. */
  predicate IsIdStop(c: char) {
    c == '&' || c == '\n' || c == '?' || c == '#'
  }

  /** `[a-zA-Z0-9_-]` */
  predicate IsIdChar(c: char) {
    ('a' <= c <= 'z') || ('A' <= c <= 'Z') || ('0' <= c <= '9') || c == '_' || c == '-'
  }

  /** The bare-id pattern `^([a-zA-Z0-9_-]{11})$`. */
  predicate IsBareId(s: string) {
    |s| == 11 && forall i :: 0 <= i < |s| ==> IsIdChar(s[i])
  }

  /** Marker `m` occurs at `p` and is followed by at least one id character. */
  predicate MatchWith(s: string, p: nat, m: string) {
    OccursAt(s, m, p) && p + |m| < |s| && !IsIdStop(s[p + |m|])
  }

  /** The URL pattern matches starting at index `p`. */
  predicate UrlMatchAt(s: string, p: nat) {
    MatchWith(s, p, WatchMarker) || MatchWith(s, p, ShortMarker) || MatchWith(s, p, EmbedMarker)
  }

  /** The marker alternative that matched at `p`, tried in the pattern's order. */
  function MarkerAt(s: string, p: nat): (m: string)
    requires UrlMatchAt(s, p)
    ensures m == WatchMarker || m == ShortMarker || m == EmbedMarker
    ensures MatchWith(s, p, m)
  {
    if MatchWith(s, p, WatchMarker) then WatchMarker
    else if MatchWith(s, p, ShortMarker) then ShortMarker
    else EmbedMarker
  }

  /** The greedy run `[^&\n?#]+` starting at `i`: as long as possible. */
  function IdRun(s: string, i: nat): (r: string)
    requires i <= |s|
    ensures i + |r| <= |s| && r == s[i..i + |r|]
    ensures forall k :: 0 <= k < |r| ==> !IsIdStop(r[k])
    ensures i + |r| == |s| || IsIdStop(s[i + |r|])
    decreases |s| - i
  {
    if i < |s| && !IsIdStop(s[i]) then [s[i]] + IdRun(s, i + 1) else []
  }

  /** The leftmost position at or after `from` where the URL pattern matches. */
  function ScanUrl(s: string, from: nat): (r: Option<nat>)
    requires from <= |s|
    ensures r.Some? ==> from <= r.value && UrlMatchAt(s, r.value)
    ensures r.Some? ==> forall q: nat :: from <= q < r.value ==> !UrlMatchAt(s, q)
    ensures r.None? ==> forall q: nat :: from <= q ==> !UrlMatchAt(s, q)
    decreases |s| - from
  {
    if UrlMatchAt(s, from) then Some(from)
    else if from == |s| then None
    else ScanUrl(s, from + 1)
  }

  /** The group the URL pattern captures when it matches at `p`: the id run
      right after the marker, which the match makes non-empty. */
  function Capture(s: string, p: nat): (r: string)
    requires UrlMatchAt(s, p)
    ensures r != [] && r == IdRun(s, p + |MarkerAt(s, p)|)
  {
    var start := p + |MarkerAt(s, p)|;
    assert s[start] == IdRun(s, start)[0];
    IdRun(s, start)
  }

  /** A leftmost match is the one the scan from the start finds. */
  lemma ScanFindsLeftmost(s: string)
    ensures forall p: nat :: UrlMatchAt(s, p) && (forall q: nat :: q < p ==> !UrlMatchAt(s, q)) ==>
              ScanUrl(s, 0) == Some(p)
  {
    forall p: nat | UrlMatchAt(s, p) && (forall q: nat :: q < p ==> !UrlMatchAt(s, q))
      ensures ScanUrl(s, 0) == Some(p)
    {
      var r := ScanUrl(s, 0);
      assert r.Some?;
      assert !(r.value < p);
    }
  }

  /** The id captured by the URL pattern, or by the bare-id pattern, tried
      in that order; `None` when neither matches. */
  function ExtractYouTubeId(url: string): (r: Option<string>)
    ensures r.Some? ==> r.value != []
    ensures forall p: nat :: UrlMatchAt(url, p) && (forall q: nat :: q < p ==> !UrlMatchAt(url, q)) ==>
              r == Some(Capture(url, p))
    ensures (forall p: nat :: !UrlMatchAt(url, p)) ==> r == (if IsBareId(url) then Some(url) else None)
  {
    ScanFindsLeftmost(url);
    match ScanUrl(url, 0)
    case Some(p) => Some(Capture(url, p))
    case None => if IsBareId(url) then Some(url) else None
  }

  /** Whatever the URL pattern captures is a non-empty run free of the
      characters `& ? #` and newline, copied from the input. */
  lemma ExtractedFromUrl(url: string, p: nat)
    requires UrlMatchAt(url, p)
    ensures ExtractYouTubeId(url).Some?
    ensures var id := ExtractYouTubeId(url).value;
            id != [] && (forall k :: 0 <= k < |id| ==> !IsIdStop(id[k]))
            && exists i: nat :: OccursAt(url, id, i)
  {
    var first := ScanUrl(url, 0).value;
    var start := first + |MarkerAt(url, first)|;
    var id := IdRun(url, start);
    assert ExtractYouTubeId(url) == Some(id);
    assert OccursAt(url, id, start);
  }

  /** Every marker starts with `y`, so a match can only start at one. */
  lemma MatchStartsWithY(s: string, q: nat)
    ensures UrlMatchAt(s, q) ==> s[q] == 'y'
  {
    if UrlMatchAt(s, q) {
      var m := MarkerAt(s, q);
      assert s[q..q + |m|][0] == m[0];
    }
  }

  lemma ShortUrlExample()
    ensures ExtractYouTubeId("https://youtu.be/dQw4w9WgXcQ") == Some("dQw4w9WgXcQ")
  {
    var s := "https://youtu.be/dQw4w9WgXcQ";
    ShortUrlMatch(s);
    ShortUrlCapture(s);
  }

  /** The short-link marker matches at index 8 and nowhere before it. */
  lemma ShortUrlMatch(s: string)
    requires s == "https://youtu.be/dQw4w9WgXcQ"
    ensures UrlMatchAt(s, 8) && MarkerAt(s, 8) == ShortMarker
    ensures forall q: nat :: q < 8 ==> !UrlMatchAt(s, q)
  {
    assert s[8..17] == ShortMarker;
    assert !MatchWith(s, 8, WatchMarker) by { assert s[13] != WatchMarker[5]; }
    assert forall i :: 0 <= i < 8 ==> s[i] != 'y';
    forall q: nat | q < 8 ensures !UrlMatchAt(s, q) {
      MatchStartsWithY(s, q);
    }
  }

  /** After the marker the id runs to the end of the link. */
  lemma ShortUrlCapture(s: string)
    requires s == "https://youtu.be/dQw4w9WgXcQ"
    ensures IdRun(s, 17) == "dQw4w9WgXcQ"
  {
    assert forall k :: 17 <= k < |s| ==> !IsIdStop(s[k]);
    IdRunToEnd(s, 17);
    assert s[17..] == "dQw4w9WgXcQ";
  }

  /** With no stop character from `i` on, the run is the whole rest. */
  lemma IdRunToEnd(s: string, i: nat)
    requires i <= |s|
    requires forall k :: i <= k < |s| ==> !IsIdStop(s[k])
    ensures IdRun(s, i) == s[i..]
  {
    var r := IdRun(s, i);
    assert i + |r| == |s|;
  }

  lemma BareIdExample()
    ensures ExtractYouTubeId("dQw4w9WgXcQ") == Some("dQw4w9WgXcQ")
  {
    var s := "dQw4w9WgXcQ";
    assert forall i :: 0 <= i < |s| ==> s[i] != 'y';
    forall q: nat ensures !UrlMatchAt(s, q) {
      MatchStartsWithY(s, q);
    }
    assert IsBareId(s);
  }

  lemma NotAUrlExample()
    ensures ExtractYouTubeId("not a url") == None
  {
    var s := "not a url";
    assert forall i :: 0 <= i < |s| ==> s[i] != 'y';
    forall q: nat ensures !UrlMatchAt(s, q) {
      MatchStartsWithY(s, q);
    }
    assert !IsBareId(s);
  }
}
